=== FILE: README.md ===
# message-center-ui: store logic in Dafny

This project models the data logic of the Pinia stores behind the message
center admin UI, along with proofs about it:

- **Template store.** Looks templates up by id or by code in the loaded list, then in the built-in list. It adds templates, rejecting duplicate codes and defaulting the status to draft. It also updates, deletes and publishes templates. `previewTemplate` replaces every `{name}` placeholder in each channel body with the supplied value (a falsy value leaves it in place).
- **Channel, system and message-type stores.** Each is an array of records with the same core operations:
  - find by id;
  - push under the id `Math.max(...ids) + 1`;
  - shallow-merge an update into the first record with the id;
  - splice the first record with the id.

  The channel store also filters on `type` and on `status`. The system store filters on `status` only. Both set `status` to `enabled` or `disabled`, returning false for an unknown id. The message-type store has only the four core operations.
- **Message store.** A message list with a derived unread counter: `markAsRead`, `markAllAsRead`, `updateUnreadCount` and `getMessagesByType`, plus wholesale replacement of the default parameter-mapping table.

Each store call is a pure function from the old array to the new array and the call's return value. There is no mutation.

A record is an open JavaScript object: its id plus a map from field names to values. The spread merge `{...old, ...patch}` is therefore map union with the patch winning.

Ids are integers, `-Infinity` or strings:
- `Math.max()` of an empty array is `-Infinity`, and `-Infinity + 1` is still `-Infinity`.
- The built-in templates use string ids.

Modules:

| file | module | what it holds |
|---|---|---|
| wrappers.dfy | Wrappers | `Option` |
| js_values.dfy | JsValues | ids, field values, truthiness, `\|\|`, `Math.max` on ids |
| seqs.dfy | Seqs | `filter` and `findIndex` |
| collection.dfy | Collection | the keyed-collection pattern shared by all four stores |
| channels.dfy, systems.dfy, message_types.dfy, templates.dfy | Channels, Systems, MessageTypes, Templates | the stores |
| placeholders.dfy | Placeholders | literal global replace and the placeholder fold of `previewTemplate` |
| messages.dfy | Messages | read-state bookkeeping |

## Model

| member | source | states |
|---|---|---|
| Seqs.Filter | src/stores/channelStore.js:563-565 | `filter` keeps exactly the elements satisfying the predicate, each as often as it occurs in the input, and never lengthens the array |
| Seqs.FilterConcat | src/stores/channelStore.js:558-560 | filtering distributes over concatenation, so kept elements keep their relative order |
| Seqs.FilterExtremes | src/stores/messageStore.js:789-791 | the filter returns the whole array iff every element passes, and the empty array iff none does |
| Seqs.FirstIndex | src/stores/channelStore.js:584 | `findIndex` gives -1 iff no element matches; otherwise it gives the first index whose element matches |
| JsValues.Truthy | src/stores/templateStore.js:594 | definition of JavaScript truthiness for the modelled values (`undefined`, `""`, `0` and `false` are falsy); used by JsValues.Or |
| JsValues.Or | src/stores/systemStore.js:62 | `v \|\| fallback` is `v` when truthy and the fallback otherwise |
| JsValues.Lookup | src/stores/templateStore.js:594 | `obj[key]` is `undefined` iff the key is absent, and otherwise the stored value |
| JsValues.IsNumber | src/stores/templateStore.js:514 | definition of `typeof id === 'number'`: integer ids and `-Infinity` are numbers and string ids are not; used by Collection.MaxId and Templates.NumericView |
| JsValues.Max | src/stores/channelStore.js:570 | `Math.max` of two numeric ids is one of them, not below either finite one, and `-Infinity` iff both are |
| JsValues.Succ | src/stores/channelStore.js:570 | `x + 1` adds one to a finite id and keeps `-Infinity` |
| Collection.FindIndex | src/stores/systemStore.js:72 | the index is absent iff no record has the id; otherwise it is the first record carrying the id |
| Collection.Find | src/stores/channelStore.js:553-555 | `find` by id is undefined iff the id is absent; otherwise it is the record at the first index with the id |
| Collection.WithAttr | src/stores/systemStore.js:50-52 | filtering on one field returns exactly the records whose field equals the value, with their multiplicities |
| Collection.WithAttrOrder | src/stores/systemStore.js:50-52 | the field filter distributes over concatenation; it returns the whole array iff every record matches |
| Collection.MaxId | src/stores/channelStore.js:570 | when some id is finite, `Math.max(...ids)` is an id of the array and bounds every finite id; it is `-Infinity` iff every id is `-Infinity` (so for an empty array) |
| Collection.Ids | src/stores/channelStore.js:570 | `.map(c => c.id)` has one entry per record, in the same order, holding that record's id |
| Collection.NextId | src/stores/channelStore.js:570 | when some id is finite, `max + 1` is one more than an id of the array, is above every finite id and so differs from every id; it is `-Infinity` iff no id is finite |
| Collection.Push | src/stores/channelStore.js:572-577 | pushing `{...x, id}` appends one record, keeps the old array as its prefix and overrides only `id`; a fresh id keeps ids unique |
| Collection.Add | src/stores/messageTypeStore.js:49-59 | add appends one record whose fields are exactly the argument's with `id` overridden; with a finite id present the new id is one more than the largest id (it is above every finite id and one below some id), hence fresh, and uniqueness is kept; with none it is `-Infinity` |
| Collection.AddToEmptyRepeatsId | src/stores/channelStore.js:570 | two adds to an empty store push two records that share the id `-Infinity` |
| Collection.Update | src/stores/systemStore.js:71-85 | returns true iff the id exists; the first record with the id becomes the shallow merge with the patch; every other record, every id and the length are unchanged; an unknown id changes nothing |
| Collection.Merged | src/stores/systemStore.js:75-78 | definition of the spread `{...old, ...patch}`: the keys are the union, the patch's values win, and every other key keeps its old value; used by every update contract |
| Collection.MergedIsSpread | src/stores/systemStore.js:75-78 | Collection.Merged holds exactly when the new map is the old map overridden by the patch, so it pins a single result |
| Collection.UpdateIdempotent | src/stores/systemStore.js:75-78 | merging the same patch twice equals merging it once |
| Collection.UpdateNoChange | src/stores/systemStore.js:75-78 | a patch whose values the record already has leaves the array unchanged |
| Collection.Delete | src/stores/systemStore.js:88-99 | returns true iff the id exists; removes exactly the first record with the id and shifts the rest down in order; under unique ids the id is then gone |
| Collection.PushThenDelete | src/stores/systemStore.js:88-99 | deleting a record pushed under a fresh id restores the array |
| Collection.AddThenDelete | src/stores/messageTypeStore.js:49-82 | deleting the id just added undoes the add when that id is fresh |
| Collection.FindByAttr | src/stores/templateStore.js:485-495 | `find` on a field is undefined iff no record's field equals the value; otherwise it is the first such record |
| Collection.SetStatus | src/stores/systemStore.js:102-113 | returns true iff the id exists; only the status of the first record with the id changes; unknown id: no change |
| Collection.SetStatusSettles | src/stores/systemStore.js:102-127 | setting a status twice equals setting it once, and setting the status the record already has changes nothing |
| Collection.SetStatusFilter | src/stores/systemStore.js:50-52 | with unique ids, after setting a status the record appears among the records with that status and with no other status |
| Channels.GetChannelById | src/stores/channelStore.js:553-555 | nothing iff no channel has the id; otherwise the first channel with it |
| Channels.GetChannelsByType | src/stores/channelStore.js:558-560 | exactly the channels of the given type, with their multiplicities; a call without an argument (`undefined`) returns the channels lacking a `type` |
| Channels.GetEnabledChannels | src/stores/channelStore.js:563-565 | exactly the channels whose status is `enabled`, with their multiplicities |
| Channels.ChannelFiltersKeepOrder | src/stores/channelStore.js:558-565 | both channel filters preserve the original order (they distribute over concatenation) |
| Channels.AddChannel | src/stores/channelStore.js:568-580 | appends one channel whose fields are exactly the argument's with `id` overridden; the id is the largest id + 1 when a finite id exists (so fresh, and uniqueness is kept) and `-Infinity` otherwise |
| Channels.UpdateChannel | src/stores/channelStore.js:583-597 | overrides exactly the supplied fields of the first channel with the id and keeps its others; false and no change for an unknown id |
| Channels.DeleteChannel | src/stores/channelStore.js:600-611 | removes the first channel with the id, the rest in order; false and no change for an unknown id; under unique ids the id is gone |
| Channels.EnableChannel | src/stores/channelStore.js:614-625 | the found channel's status becomes `enabled`, every other channel is unchanged; false and no change for an unknown id |
| Channels.DisableChannel | src/stores/channelStore.js:628-639 | the found channel's status becomes `disabled`, every other channel is unchanged; false and no change for an unknown id |
| Channels.EnableDisableIdempotent | src/stores/channelStore.js:614-639 | enabling (disabling) twice equals once; enabling an enabled channel or disabling a disabled one changes nothing |
| Channels.EnabledListFollowsSwitch | src/stores/channelStore.js:563-639 | with unique ids, an enabled channel is listed by `getEnabledChannels` and a disabled one is not |
| Systems.GetSystemById | src/stores/systemStore.js:45-47 | nothing iff no system has the id; otherwise the first system with it |
| Systems.GetEnabledSystems | src/stores/systemStore.js:50-52 | exactly the systems whose status is `enabled`, with their multiplicities |
| Systems.AddSystem | src/stores/systemStore.js:55-68 | appends one system with the id largest id + 1 when a finite id exists and `-Infinity` otherwise; status is the given one when truthy, else `enabled`; the other fields are exactly the argument's |
| Systems.UpdateSystem | src/stores/systemStore.js:71-85 | merges the supplied fields into the first system with the id only; false and no change for an unknown id |
| Systems.DeleteSystem | src/stores/systemStore.js:88-99 | removes the first system with the id, keeping the others in order; false and no change for an unknown id |
| Systems.EnableSystem | src/stores/systemStore.js:102-113 | only the found system's status changes, to `enabled`; false and no change for an unknown id |
| Systems.DisableSystem | src/stores/systemStore.js:116-127 | only the found system's status changes, to `disabled`; false and no change for an unknown id |
| Systems.EnabledSystemsFollowSwitch | src/stores/systemStore.js:50-127 | with unique ids, `getEnabledSystems` lists a system right after it is enabled and omits it right after it is disabled |
| MessageTypes.GetMessageTypeById | src/stores/messageTypeStore.js:44-46 | nothing iff no type has the id; otherwise the first type with it |
| MessageTypes.AddMessageType | src/stores/messageTypeStore.js:49-59 | appends one type whose fields are exactly the argument's with `id` overridden; the length grows by one; the id is the largest id + 1 when a finite id exists (fresh, ids stay unique) and `-Infinity` otherwise |
| MessageTypes.UpdateMessageType | src/stores/messageTypeStore.js:62-72 | merges the supplied fields into the first type with the id; false and no change if absent |
| MessageTypes.DeleteMessageType | src/stores/messageTypeStore.js:75-82 | removes exactly the first type with the id (as a multiset, exactly that one element), others in order; false and no change if absent |
| Templates.GetTemplateById | src/stores/templateStore.js:472-482 | the loaded list is searched first, then the built-in list; nothing iff the id is in neither |
| Templates.GetTemplateByCode | src/stores/templateStore.js:485-495 | the first loaded template whose `code` is strictly equal to the argument, else the first built-in one whose `templateCode` is; nothing iff neither exists; an `undefined` code matches templates that lack the field |
| Templates.NumericView | src/stores/templateStore.js:514 | the ids `Math.max` sees: numeric ids as they are, string ids as 0 |
| Templates.CodeClash | src/stores/templateStore.js:503-506 | definition of the duplicate-code test `t.code === code \|\| (t.templateCode && t.templateCode === code)`; Templates.AddTemplate states rejection exactly when some template clashes |
| Templates.CodeTaken | src/stores/templateStore.js:503-506 | definition: some template of the list clashes; the rejection condition in Templates.AddTemplate |
| Templates.TemplateId | src/stores/templateStore.js:514 | the new id is one more than the largest id of the numeric view (string ids as 0): above every entry of the view and one below some entry; `-Infinity` iff every id is `-Infinity` (in particular for an empty list); otherwise finite and fresh |
| Templates.NewTemplateAttrs | src/stores/templateStore.js:516-521 | the pushed fields are the argument's, with `status` defaulting to draft and `createdTime` set to the given time |
| Templates.AddTemplate | src/stores/templateStore.js:498-526 | rejected, with the list unchanged, iff the code equals some template's `code` or truthy `templateCode`; otherwise exactly one template is appended, under the id of Templates.TemplateId, whose fields are exactly the argument's with `status \|\| 'draft'` and `createdTime`; a list holding an id other than `-Infinity` keeps ids unique |
| Templates.AddTemplateThenDelete | src/stores/templateStore.js:498-559 | deleting a template just added restores the list when its id is fresh |
| Templates.UpdateTemplate | src/stores/templateStore.js:529-545 | the first template with the id becomes the shallow merge of its fields with the supplied fields and the update time (no key lost or invented); the others are unchanged; false and no change for an unknown id |
| Templates.UpdateTemplateTwice | src/stores/templateStore.js:529-545 | repeating an update with the same fields and time stamp changes nothing further |
| Templates.DeleteTemplate | src/stores/templateStore.js:548-559 | removes the first template with the id, the rest keep their order; false and no change for an unknown id |
| Templates.PublishTemplate | src/stores/templateStore.js:562-574 | the found template's fields become its old fields with `status` set to `published` and `updatedTime` to the given time, nothing else; all other templates unchanged; false and no change for an unknown id |
| Templates.PublishTwice | src/stores/templateStore.js:562-574 | publishing twice leaves the template published and returns the same flag; at the same time stamp it equals publishing once |
| Templates.PreviewTemplate | src/stores/templateStore.js:577-604 | null iff no template has the id; otherwise the found template with a preview whose channel keys are exactly the content's, each body rendered on its own |
| Templates.Bodies | src/stores/templateStore.js:588-589 | definition of `template.content` as a map of channel bodies; Templates.PreviewTemplate states the preview has exactly its keys |
| Templates.PreviewResolvesGivenNames | src/stores/templateStore.js:588-598 | no rendered body still contains `{v}` for a data key `v` with a truthy value (bodies without nested braces, brace-free data) |
| Templates.PreviewKeepsUnresolved | src/stores/templateStore.js:588-598 | for brace-free data names and any values, a `{w}` whose name is absent from the data or has a falsy value survives in every body that had it; with only falsy values (or no data) every body equals its original |
| Placeholders.Placeholder | src/stores/templateStore.js:593 | the pattern is the name between `{` and `}` |
| Placeholders.ReplaceAll | src/stores/templateStore.js:593-594 | definition of the global literal replace; characterised by ReplaceAllCopies, ReplaceAllSplit, ReplaceAllAbsent, ReplaceAllSelf, ReplaceAllClears and ReplaceAllKeepsOthers |
| Placeholders.Substitute | src/stores/templateStore.js:594 | definition of one `content.replace(regex, data[v] \|\| '{v}')`; a falsy value replaces the placeholder by itself, which ReplaceAllSelf shows is the identity |
| Placeholders.Render | src/stores/templateStore.js:592-595 | definition of the loop over the data keys in order; characterised by RenderFalsyKeepsBody, RenderKeepsClear, RenderResolves and RenderKeepsUnresolved |
| Placeholders.ReplaceAllCopies | src/stores/templateStore.js:594 | text without `{` passes through a global placeholder replace unchanged |
| Placeholders.ReplaceAllSplit | src/stores/templateStore.js:594 | an occurrence of the placeholder after brace-free text is replaced by the value and scanning continues after it |
| Placeholders.ReplaceAllAbsent | src/stores/templateStore.js:594 | a body without the placeholder is left unchanged |
| Placeholders.ReplaceAllSelf | src/stores/templateStore.js:594 | replacing the placeholder by itself (the falsy-value case) is the identity |
| Placeholders.ReplaceAllClears | src/stores/templateStore.js:593-594 | in a body without nested braces and with a brace-free value, no `{v}` remains after replacing `{v}`, and no new `{w}` is created |
| Placeholders.ReplaceAllKeepsOthers | src/stores/templateStore.js:593-594 | replacing `{v}` keeps every `{w}` with `w` different from `v` |
| Placeholders.KeepsPlaceholderAtHead | src/stores/templateStore.js:593-594 | a `{w}` at the head of a text not starting with `{v}` is still at the head after replacing `{v}` |
| Placeholders.ReplaceAllKeepsBraces | src/stores/templateStore.js:593-594 | a brace-free value keeps the body free of nested braces |
| Placeholders.RenderFalsyKeepsBody | src/stores/templateStore.js:592-595 | with only falsy values the body is unchanged |
| Placeholders.RenderKeepsClear | src/stores/templateStore.js:592-595 | for a body without nested braces and brace-free data names and values, a placeholder absent from the body is never introduced by the fold (both conditions are needed: `{{x}}` with `x = "w"` gives `{w}`) |
| Placeholders.RenderResolves | src/stores/templateStore.js:592-595 | after the fold, no `{v}` remains for any data key with a truthy value (body without nested braces, brace-free data) |
| Placeholders.RenderKeepsUnresolved | src/stores/templateStore.js:592-595 | for brace-free data names and any values, a `{w}` whose name is absent from the data or has only falsy values survives the fold |
| Placeholders.NestedBracesDefeatSubstitution | src/stores/templateStore.js:592-595 | body `{{x}}` with `x = "x"` renders to `{x}`, so the no-remaining-placeholder property needs the nested-brace condition |
| Messages.Unread | src/stores/messageStore.js:790 | the unread list holds exactly the messages whose `read` is false, each as often as it occurs in the inbox |
| Messages.UpdateUnreadCount | src/stores/messageStore.js:789-791 | the counter equals the number of unread messages, lies in 0..\|messages\|, and is 0 iff every message is read |
| Messages.MessageIndex | src/stores/messageStore.js:773 | the search by id is absent iff no message has the id; otherwise it is the first such message |
| Messages.UnreadAfterReading | src/stores/messageStore.js:774-776 | reading one unread message removes exactly one entry from the unread list |
| Messages.ReadAt | src/stores/messageStore.js:775-776 | reading the message at an index sets only its flag and leaves the counter consistent and one lower |
| Messages.MarkAsRead | src/stores/messageStore.js:772-777 | an unknown id or a read message changes nothing; otherwise only that message's `read` becomes true, the counter is consistent and drops by one if it was consistent |
| Messages.MessageIndexSameIds | src/stores/messageStore.js:773 | the search by id depends only on the ids in order |
| Messages.ReadAtSettles | src/stores/messageStore.js:773-774 | once the message found by the id is read, a further `markAsRead` of that id changes nothing |
| Messages.MarkAsReadIdempotent | src/stores/messageStore.js:772-777 | marking the same message read twice equals marking it once |
| Messages.MarkAllAsRead | src/stores/messageStore.js:781-786 | every message is the original with `read` true, the counter is 0 and consistent, the mapping table is untouched |
| Messages.MarkAllAsReadIdempotent | src/stores/messageStore.js:781-786 | marking everything read twice equals doing it once |
| Messages.MarkAllAsReadForgetsFlags | src/stores/messageStore.js:782-784 | `markAllAsRead` depends on each message only up to its `read` flag |
| Messages.ReadAtAbsorbed | src/stores/messageStore.js:772-786 | reading one message before `markAllAsRead` makes no difference |
| Messages.MarkAllAsReadAbsorbs | src/stores/messageStore.js:772-786 | `markAsRead` followed by `markAllAsRead` equals `markAllAsRead` alone |
| Messages.GetMessagesByType | src/stores/messageStore.js:794-798 | exactly the messages whose type id is the argument, with their multiplicities |
| Messages.MessagesByTypeKeepOrder | src/stores/messageStore.js:794-798 | the type filter preserves the original order |
| Messages.UpdateDefaultParamMappings | src/stores/messageStore.js:915-919 | the mapping table becomes the argument; messages and counter are untouched |

## Left out

- Data loading (`loadTemplates`, `loadChannels`, `loadSystems`, `loadMessageTypes`, `loadMessages`, `loadDefaultParamMappings`, `loadStatistics`, and `initializeData`, which calls them in turn): each assigns hard-coded data, most after a timer. The message store's `loadTemplates`, `loadDefaultParamMappings` and `loadStatistics` assign directly. The stores are modelled as already loaded.
- `testChannel`: its outcome comes from `Math.random` and timers.
- The statistics store, the init store and the router: random counts, date arithmetic, floating-point percentages, load scheduling and route tables.
- `ElMessage` toasts and the commented-out HTTP calls: these are UI and network side effects. The toast texts are not modelled.
- Time stamps: `new Date().toISOString()` becomes a `now` string parameter of `addTemplate`, `updateTemplate` and `publishTemplate`.
- The channel configuration fields (priority, retries, rate limit, available time, metrics) are carried as opaque field values. No code interprets them.
- The contents of the default parameter-mapping table are not modelled; it is only replaced wholesale.
- The channel store's copy of `updateDefaultParamMappings` (src/stores/channelStore.js:544-550) is not modelled. It differs only in returning true.
- After loading, `templates.value` is the very array of built-in templates, so updates through one are seen through the other. The model passes the two lists separately and does not track this aliasing.
- Object identity: two records with equal fields are equal here, whereas `===` on objects compares references.
- `getMessagesByType` returns a Vue computed ref. It is modelled as the filtered list at the time of the call.
- JavaScript numbers are modelled as unbounded integers plus `-Infinity`. Fractions, `NaN` and overflow are not modelled.
- Collection.Add: requires every id to be a number. `Math.max` converts a string id to a number (`NaN` for a non-numeric string, so the new id would be `NaN`); string ids in these stores are not modelled.
- Channels.AddChannel: requires numeric ids, for the same string-conversion reason.
- Systems.AddSystem: requires numeric ids, for the same string-conversion reason.
- MessageTypes.AddMessageType: requires numeric ids, for the same string-conversion reason.
- Collection.Update: requires a patch without an `id` field. The spread would let such a patch overwrite the record's id, and the model excludes that case.
- Channels.UpdateChannel: requires a patch without an `id` field, as for Collection.Update.
- Systems.UpdateSystem: requires a patch without an `id` field, as for Collection.Update.
- MessageTypes.UpdateMessageType: requires a patch without an `id` field, as for Collection.Update.
- Templates.UpdateTemplate: requires a patch without an `id` field, as for Collection.Update.
- Templates.PreviewTemplate: placeholder names are literal text, so only identifier names (letters, digits and `_`, not starting with a digit) are modelled. `new RegExp` reads any other name as a pattern. A name with metacharacters matches something other than `{name}`. For an all-digit name such as `1`, or a name such as `1,2`, `{name}` is a braced quantifier with nothing to repeat: `new RegExp` throws a SyntaxError, so `previewTemplate` throws, while the model renders the body. Values are plain text, so `$` replacement patterns are not modelled.
- Templates.PreviewTemplate: a data value is modelled as a string, and the empty string is its falsy case. Other value types and their string conversion are not modelled.
- Templates.PreviewTemplate: a `content` that is not an object of strings yields no channels.
- Templates.PreviewResolvesGivenNames: proved only for bodies without nested braces and brace-free data. Without those conditions the property fails (see Placeholders.NestedBracesDefeatSubstitution).
- Placeholders.RenderResolves: proved under the same conditions as Templates.PreviewResolvesGivenNames.
- Collection.AddThenDelete: proved only when the new id is fresh. In a store whose ids are all `-Infinity`, delete removes the first such record instead.
- Templates.AddTemplateThenDelete: proved only when the new id is fresh, for the same reason.

=== FILE: channels.dfy ===
/** The channel store: an array of channel records keyed by numeric id, each
    with a `type` (internal, email, sms, ...) and a `status` of `enabled` or
    `disabled`. Configuration fields ride along as opaque attributes. */
module Channels {
  import opened Wrappers
  import opened JsValues
  import opened Collection

  const TypeKey := "type"

  /** `getChannelById`: the first channel with the id, or nothing. */
  function GetChannelById(channels: seq<Record>, id: Id): (r: Option<Record>)
    ensures r.None? <==> !HasId(channels, id)
    ensures r.Some? ==> r.value == channels[FindIndex(channels, id).value]
  {
    Find(channels, id)
  }

  /** `getChannelsByType`: exactly the channels of the given type; a call
      without an argument (`None`) returns the channels lacking a `type`. */
  function GetChannelsByType(channels: seq<Record>, channelType: Option<Value>): (r: seq<Record>)
    ensures forall c :: c in r <==> c in channels && Lookup(c.attrs, TypeKey) == channelType
    ensures forall c :: multiset(r)[c] == if Lookup(c.attrs, TypeKey) == channelType then multiset(channels)[c] else 0
  {
    WithAttr(channels, TypeKey, channelType)
  }

  /** `getEnabledChannels`: exactly the channels whose status is `enabled`. */
  function GetEnabledChannels(channels: seq<Record>): (r: seq<Record>)
    ensures forall c :: c in r <==> c in channels && HasStatus(c, Enabled)
    ensures forall c :: multiset(r)[c] == if HasStatus(c, Enabled) then multiset(channels)[c] else 0
  {
    WithAttr(channels, StatusKey, Some(Enabled))
  }

  /** Both channel filters keep the channels in their original order. */
  lemma ChannelFiltersKeepOrder(a: seq<Record>, b: seq<Record>, channelType: Option<Value>)
    ensures GetChannelsByType(a + b, channelType) == GetChannelsByType(a, channelType) + GetChannelsByType(b, channelType)
    ensures GetEnabledChannels(a + b) == GetEnabledChannels(a) + GetEnabledChannels(b)
  {
    WithAttrOrder(a, b, TypeKey, channelType);
    WithAttrOrder(a, b, StatusKey, Some(Enabled));
  }

  /** `addChannel`: pushes the channel under id `max(ids) + 1`. */
  function AddChannel(channels: seq<Record>, channel: map<string, Value>): (r: Added)
    requires NumericIds(channels)
    ensures |r.store| == |channels| + 1 && r.store[..|channels|] == channels && r.store[|channels|] == r.record
    ensures forall k :: k in channel && k != "id" ==> Lookup(r.record.attrs, k) == Some(channel[k])
    ensures forall k :: k in r.record.attrs ==> k in channel && k != "id"
    ensures HasFiniteId(channels) ==> r.record.id.IntId? && !HasId(channels, r.record.id)
    ensures HasFiniteId(channels) ==> forall i :: 0 <= i < |channels| && channels[i].id.IntId? ==> channels[i].id.n < r.record.id.n
    ensures HasFiniteId(channels) ==> exists i :: 0 <= i < |channels| && channels[i].id == IntId(r.record.id.n - 1)
    ensures !HasFiniteId(channels) ==> r.record.id == NegInfinityId
    ensures UniqueIds(channels) && HasFiniteId(channels) ==> UniqueIds(r.store)
  {
    Add(channels, channel)
  }

  /** `updateChannel`: merges the supplied fields into the first channel with
      the id; false and no change when there is none. */
  function UpdateChannel(channels: seq<Record>, id: Id, patch: map<string, Value>): (r: Outcome)
    requires "id" !in patch
    ensures r.ok <==> HasId(channels, id)
    ensures !r.ok ==> r.store == channels
    ensures r.ok ==> var k := FindIndex(channels, id).value;
      && |r.store| == |channels| && r.store[k].id == id
      && Merged(channels[k].attrs, patch, r.store[k].attrs)
      && forall j :: 0 <= j < |channels| && j != k ==> r.store[j] == channels[j]
  {
    Update(channels, id, patch)
  }

  /** `deleteChannel`: removes the first channel with the id. */
  function DeleteChannel(channels: seq<Record>, id: Id): (r: Outcome)
    ensures r.ok <==> HasId(channels, id)
    ensures !r.ok ==> r.store == channels
    ensures r.ok ==> var k := FindIndex(channels, id).value;
      r.store == channels[..k] + channels[k + 1..]
    ensures UniqueIds(channels) ==> !HasId(r.store, id)
  {
    var r := Delete(channels, id);
    assert r.ok ==> var k := FindIndex(channels, id).value;
      r.store == channels[..k] + channels[k + 1..];
    r
  }

  /** `enableChannel`: sets the found channel's status to `enabled`. */
  function EnableChannel(channels: seq<Record>, id: Id): (r: Outcome)
    ensures r.ok <==> HasId(channels, id)
    ensures !r.ok ==> r.store == channels
    ensures r.ok ==> var k := FindIndex(channels, id).value;
      && |r.store| == |channels|
      && r.store[k] == Record(id, channels[k].attrs[StatusKey := Enabled])
      && forall j :: 0 <= j < |channels| && j != k ==> r.store[j] == channels[j]
  {
    SetStatus(channels, id, Enabled)
  }

  /** `disableChannel`: sets the found channel's status to `disabled`. */
  function DisableChannel(channels: seq<Record>, id: Id): (r: Outcome)
    ensures r.ok <==> HasId(channels, id)
    ensures !r.ok ==> r.store == channels
    ensures r.ok ==> var k := FindIndex(channels, id).value;
      && |r.store| == |channels|
      && r.store[k] == Record(id, channels[k].attrs[StatusKey := Disabled])
      && forall j :: 0 <= j < |channels| && j != k ==> r.store[j] == channels[j]
  {
    SetStatus(channels, id, Disabled)
  }

  /** Enabling or disabling twice is the same as once, and enabling an
      enabled channel (disabling a disabled one) changes nothing. */
  lemma EnableDisableIdempotent(channels: seq<Record>, id: Id)
    ensures EnableChannel(EnableChannel(channels, id).store, id) == EnableChannel(channels, id)
    ensures DisableChannel(DisableChannel(channels, id).store, id) == DisableChannel(channels, id)
    ensures (match GetChannelById(channels, id) case None => true case Some(c) => HasStatus(c, Enabled))
            ==> EnableChannel(channels, id).store == channels
    ensures (match GetChannelById(channels, id) case None => true case Some(c) => HasStatus(c, Disabled))
            ==> DisableChannel(channels, id).store == channels
  {
    SetStatusSettles(channels, id, Enabled);
    SetStatusSettles(channels, id, Disabled);
  }

  /** With unique ids, an enabled channel is listed by `getEnabledChannels`
      and a disabled one is not. */
  lemma EnabledListFollowsSwitch(channels: seq<Record>, id: Id)
    requires UniqueIds(channels) && HasId(channels, id)
    ensures exists c :: c in GetEnabledChannels(EnableChannel(channels, id).store) && c.id == id
    ensures forall c :: c in GetEnabledChannels(DisableChannel(channels, id).store) ==> c.id != id
  {
    SetStatusFilter(channels, id, Enabled, Disabled);
    SetStatusFilter(channels, id, Disabled, Enabled);
  }
}

=== FILE: collection.dfy ===
/** The keyed-collection pattern shared by the template, channel, system and
    message-type stores: an array of records searched with `find`/`findIndex`
    by `id`, filtered on one attribute, extended with `push` under the id
    `Math.max(...ids) + 1`, merged into with `{...old, ...patch}` and shrunk
    with `splice(index, 1)`.

    A record is an open JavaScript object: its id and a map from attribute
    names to values, so a shallow merge is map union with the patch winning. */
module Collection {
  import opened Wrappers
  import opened JsValues
  import Seqs

  datatype Record = Record(id: Id, attrs: map<string, Value>)

  /** The result of a mutating store call: the new array and the boolean the
      call returns. */
  datatype Outcome = Outcome(store: seq<Record>, ok: bool)

  /** The result of an `add`: the new array and the record pushed onto it. */
  datatype Added = Added(store: seq<Record>, record: Record)

  const StatusKey := "status"
  const Enabled := Text("enabled")
  const Disabled := Text("disabled")

  predicate HasId(s: seq<Record>, id: Id) {
    exists i :: 0 <= i < |s| && s[i].id == id
  }

  /** No two records share an id (`===`, under which `-Infinity` equals itself). */
  predicate UniqueIds(s: seq<Record>) {
    forall i, j :: 0 <= i < j < |s| ==> s[i].id != s[j].id
  }

  /** Every id is a number, as `Math.max` needs to produce a number. */
  predicate NumericIds(s: seq<Record>) {
    forall i :: 0 <= i < |s| ==> IsNumber(s[i].id)
  }

  /** Some id is a finite number. */
  predicate HasFiniteId(s: seq<Record>) {
    exists i :: 0 <= i < |s| && s[i].id.IntId?
  }

  /** `findIndex(x => x.id === id)`, with None for -1. */
  function FindIndex(s: seq<Record>, id: Id): (r: Option<nat>)
    ensures r.None? <==> !HasId(s, id)
    ensures r.Some? ==> r.value < |s| && s[r.value].id == id
    ensures r.Some? ==> forall j :: 0 <= j < r.value ==> s[j].id != id
  {
    Seqs.FirstIndex(s, (x: Record) => x.id == id)
  }

  /** `find(x => x.id === id)`: the first record with the id, or `undefined`. */
  function Find(s: seq<Record>, id: Id): (r: Option<Record>)
    ensures r.None? <==> !HasId(s, id)
    ensures r.Some? ==> r.value in s && r.value.id == id
    ensures forall k :: 0 <= k < |s| && s[k].id == id && (forall j :: 0 <= j < k ==> s[j].id != id) ==>
                          r == Some(s[k])
  {
    match FindIndex(s, id)
    case None => None
    case Some(k) => Some(s[k])
  }

  /** `filter(x => x[key] === v)`: the records whose attribute equals `v`
      (`None` is `undefined`, which matches the records lacking the field). */
  function WithAttr(s: seq<Record>, key: string, v: Option<Value>): (r: seq<Record>)
    ensures |r| <= |s|
    ensures forall x :: x in r <==> x in s && Lookup(x.attrs, key) == v
    ensures forall x :: multiset(r)[x] == if Lookup(x.attrs, key) == v then multiset(s)[x] else 0
  {
    Seqs.Filter(s, (x: Record) => Lookup(x.attrs, key) == v)
  }

  /** The filter keeps the relative order of the records it returns: it
      distributes over concatenation, and returns the whole array exactly when
      every record matches. */
  lemma WithAttrOrder(a: seq<Record>, b: seq<Record>, key: string, v: Option<Value>)
    ensures WithAttr(a + b, key, v) == WithAttr(a, key, v) + WithAttr(b, key, v)
    ensures WithAttr(a, key, v) == a <==> forall i :: 0 <= i < |a| ==> Lookup(a[i].attrs, key) == v
  {
    var keep := (x: Record) => Lookup(x.attrs, key) == v;
    Seqs.FilterConcat(a, b, keep);
    Seqs.FilterExtremes(a, keep);
  }

  /** `Math.max(...ids)`; `-Infinity` for no ids. */
  function MaxId(ids: seq<Id>): (r: Id)
    requires forall i :: 0 <= i < |ids| ==> IsNumber(ids[i])
    ensures IsNumber(r)
    ensures r.NegInfinityId? <==> forall i :: 0 <= i < |ids| ==> ids[i].NegInfinityId?
    ensures r.IntId? ==> (exists i :: 0 <= i < |ids| && ids[i] == r)
    ensures r.IntId? ==> forall i :: 0 <= i < |ids| && ids[i].IntId? ==> ids[i].n <= r.n
  {
    if |ids| == 0 then NegInfinityId
    else
      var m := MaxId(ids[1..]);
      assert forall i :: 1 <= i < |ids| ==> ids[i] == ids[1..][i - 1];
      Max(ids[0], m)
  }

  /** `Math.max(...ids) + 1`: one more than the largest id, hence above every
      finite id, and `-Infinity` when no id is finite. */
  function NextId(ids: seq<Id>): (r: Id)
    requires forall i :: 0 <= i < |ids| ==> IsNumber(ids[i])
    ensures (forall i :: 0 <= i < |ids| ==> ids[i].NegInfinityId?) <==> r.NegInfinityId?
    ensures r.IntId? ==> forall i :: 0 <= i < |ids| ==> ids[i] != r
    ensures r.IntId? ==> forall i :: 0 <= i < |ids| && ids[i].IntId? ==> ids[i].n < r.n
    ensures r.IntId? ==> exists i :: 0 <= i < |ids| && ids[i] == IntId(r.n - 1)
  {
    Succ(MaxId(ids))
  }

  /** `.map(c => c.id)`. */
  function Ids(s: seq<Record>): (r: seq<Id>)
    ensures |r| == |s| && forall i :: 0 <= i < |s| ==> r[i] == s[i].id
  {
    seq(|s|, i requires 0 <= i < |s| => s[i].id)
  }

  /** `push({...attrs, id})`: the attributes of the argument with its own `id`
      (if any) overridden by `id`. Ids stay unique when `id` is fresh. */
  function Push(s: seq<Record>, id: Id, attrs: map<string, Value>): (r: Added)
    ensures |r.store| == |s| + 1 && r.store[..|s|] == s && r.store[|s|] == r.record
    ensures r.record.id == id && "id" !in r.record.attrs
    ensures forall k :: k in attrs && k != "id" ==> Lookup(r.record.attrs, k) == Some(attrs[k])
    ensures forall k :: k in r.record.attrs ==> k in attrs
    ensures UniqueIds(s) && !HasId(s, id) ==> UniqueIds(r.store)
  {
    var rec := Record(id, attrs - {"id"});
    Added(s + [rec], rec)
  }

  /** `add(x)` for the stores that only set the id: the new record gets
      `Math.max(...ids) + 1`. When the store holds a finite id, the new id is
      fresh and uniqueness is kept; in an empty store it is `-Infinity`. */
  function Add(s: seq<Record>, attrs: map<string, Value>): (r: Added)
    requires NumericIds(s)
    ensures |r.store| == |s| + 1 && r.store[..|s|] == s && r.store[|s|] == r.record
    ensures forall k :: k in attrs && k != "id" ==> Lookup(r.record.attrs, k) == Some(attrs[k])
    ensures forall k :: k in r.record.attrs ==> k in attrs && k != "id"
    ensures HasFiniteId(s) ==> r.record.id.IntId? && !HasId(s, r.record.id)
    ensures HasFiniteId(s) ==> forall i :: 0 <= i < |s| && s[i].id.IntId? ==> s[i].id.n < r.record.id.n
    ensures HasFiniteId(s) ==> exists i :: 0 <= i < |s| && s[i].id == IntId(r.record.id.n - 1)
    ensures !HasFiniteId(s) ==> r.record.id == NegInfinityId
    ensures UniqueIds(s) && HasFiniteId(s) ==> UniqueIds(r.store)
  {
    var ids := Ids(s);
    var id := NextId(ids);
    assert HasFiniteId(s) ==> !id.NegInfinityId?;
    Push(s, id, attrs)
  }

  /** `Math.max()` of no ids is `-Infinity`, so two adds to an empty store
      push two records with the same id, `-Infinity`. */
  lemma AddToEmptyRepeatsId(a: map<string, Value>, b: map<string, Value>)
    ensures var first := Add([], a);
            var second := Add(first.store, b);
            second.store[0].id == second.store[1].id == NegInfinityId
            && !UniqueIds(second.store)
  {
    var first := Add([], a);
    assert !HasFiniteId(first.store);
  }

  /** `{...old, ...patch}`: every key of the patch takes the patch's value,
      every other key keeps its old value, and no key is lost or invented. */
  predicate Merged(before: map<string, Value>, patch: map<string, Value>, after: map<string, Value>) {
    && after.Keys == before.Keys + patch.Keys
    && (forall k :: k in patch ==> after[k] == patch[k])
    && (forall k :: k in before && k !in patch ==> after[k] == before[k])
  }

  /** `Merged` is exactly the spread: the merged map is the old one
      overridden by the patch, and nothing else. */
  lemma MergedIsSpread(before: map<string, Value>, patch: map<string, Value>, after: map<string, Value>)
    ensures Merged(before, patch, after) <==> after == before + patch
  {
  }

  /** `update(id, patch)`: merges the patch into the first record with the id.
      The patch carries no `id`: the JavaScript spread would let a patch with
      an `id` key overwrite the record's id, which this model rules out. */
  function Update(s: seq<Record>, id: Id, patch: map<string, Value>): (r: Outcome)
    requires "id" !in patch
    ensures r.ok <==> HasId(s, id)
    ensures !r.ok ==> r.store == s
    ensures |r.store| == |s|
    ensures forall j :: 0 <= j < |s| ==> r.store[j].id == s[j].id
    ensures r.ok ==> var k := FindIndex(s, id).value;
      && Merged(s[k].attrs, patch, r.store[k].attrs)
      && forall j :: 0 <= j < |s| && j != k ==> r.store[j] == s[j]
    ensures UniqueIds(s) ==> UniqueIds(r.store)
  {
    match FindIndex(s, id)
    case None => Outcome(s, false)
    case Some(k) => Outcome(s[k := Record(s[k].id, s[k].attrs + patch)], true)
  }

  lemma FindIndexSameIds(s: seq<Record>, t: seq<Record>, id: Id)
    requires |s| == |t| && forall j :: 0 <= j < |s| ==> s[j].id == t[j].id
    ensures FindIndex(s, id) == FindIndex(t, id)
  {
    var a, b := FindIndex(s, id), FindIndex(t, id);
    if a.Some? && b.Some? {
      assert !(a.value < b.value) && !(b.value < a.value);
    }
  }

  /** Merging the same patch twice is the same as merging it once. */
  lemma {:induction false} UpdateIdempotent(s: seq<Record>, id: Id, patch: map<string, Value>)
    requires "id" !in patch
    ensures Update(Update(s, id, patch).store, id, patch) == Update(s, id, patch)
  {
    var once := Update(s, id, patch);
    FindIndexSameIds(s, once.store, id);
    if once.ok {
      var k := FindIndex(s, id).value;
      assert once.store[k].attrs + patch == s[k].attrs + patch + patch == s[k].attrs + patch;
    }
  }

  /** A patch whose values the record already has changes nothing. */
  lemma {:induction false} UpdateNoChange(s: seq<Record>, id: Id, patch: map<string, Value>)
    requires "id" !in patch
    requires match Find(s, id)
             case None => true
             case Some(x) => forall k :: k in patch ==> Lookup(x.attrs, k) == Some(patch[k])
    ensures Update(s, id, patch).store == s
  {
    match FindIndex(s, id)
    case None =>
    case Some(k) =>
      assert s[k].attrs + patch == s[k].attrs;
      assert s[k := Record(s[k].id, s[k].attrs)] == s;
  }

  /** `splice(findIndex(x => x.id === id), 1)`: removes the first record with
      the id and keeps the others in order. */
  function Delete(s: seq<Record>, id: Id): (r: Outcome)
    ensures r.ok <==> HasId(s, id)
    ensures !r.ok ==> r.store == s
    ensures r.ok ==> var k := FindIndex(s, id).value;
      && |r.store| == |s| - 1
      && (forall j :: 0 <= j < k ==> r.store[j] == s[j])
      && (forall j :: k <= j < |r.store| ==> r.store[j] == s[j + 1])
      && multiset(r.store) + multiset{s[k]} == multiset(s)
    ensures UniqueIds(s) ==> UniqueIds(r.store) && !HasId(r.store, id)
  {
    match FindIndex(s, id)
    case None => Outcome(s, false)
    case Some(k) =>
      assert s == s[..k] + [s[k]] + s[k + 1..];
      Outcome(s[..k] + s[k + 1..], true)
  }

  /** Deleting a record pushed under a fresh id restores the array. */
  lemma PushThenDelete(s: seq<Record>, id: Id, attrs: map<string, Value>)
    requires !HasId(s, id)
    ensures Delete(Push(s, id, attrs).store, id) == Outcome(s, true)
  {
    var t := Push(s, id, attrs).store;
    assert t[|s|].id == id;
    var k := FindIndex(t, id).value;
    assert forall j :: 0 <= j < |s| ==> t[j] == s[j];
    assert t[..k] == s;
  }

  /** `delete(add(x).id)` undoes the add whenever the new id is fresh: the
      store holds a finite id, or is empty. */
  lemma AddThenDelete(s: seq<Record>, attrs: map<string, Value>)
    requires NumericIds(s) && (HasFiniteId(s) || |s| == 0)
    ensures var a := Add(s, attrs); Delete(a.store, a.record.id) == Outcome(s, true)
  {
    var a := Add(s, attrs);
    assert a.store == Push(s, a.record.id, attrs).store;
    PushThenDelete(s, a.record.id, attrs);
  }

  /** `find(x => x[key] === v)`: the first record whose attribute is `v`,
      where `v` may be `undefined` (None), which a record without the
      attribute matches. */
  function FindByAttr(s: seq<Record>, key: string, v: Option<Value>): (r: Option<Record>)
    ensures r.None? <==> forall j :: 0 <= j < |s| ==> Lookup(s[j].attrs, key) != v
    ensures r.Some? ==> r.value in s && Lookup(r.value.attrs, key) == v
    ensures forall k :: 0 <= k < |s| && Lookup(s[k].attrs, key) == v &&
                        (forall j :: 0 <= j < k ==> Lookup(s[j].attrs, key) != v) ==>
                          r == Some(s[k])
  {
    match Seqs.FirstIndex(s, (x: Record) => Lookup(x.attrs, key) == v)
    case None => None
    case Some(k) => Some(s[k])
  }

  predicate HasStatus(x: Record, status: Value) {
    Lookup(x.attrs, StatusKey) == Some(status)
  }

  /** `const x = find(id); if (x) { x.status = status; return true } return false`:
      only the status of the first record with the id changes. */
  function SetStatus(s: seq<Record>, id: Id, status: Value): (r: Outcome)
    ensures r.ok <==> HasId(s, id)
    ensures !r.ok ==> r.store == s
    ensures |r.store| == |s|
    ensures r.ok ==> var k := FindIndex(s, id).value;
      && r.store[k] == Record(id, s[k].attrs[StatusKey := status])
      && forall j :: 0 <= j < |s| && j != k ==> r.store[j] == s[j]
    ensures UniqueIds(s) ==> UniqueIds(r.store)
  {
    var r := Update(s, id, map[StatusKey := status]);
    assert r.ok ==> var k := FindIndex(s, id).value;
      r.store[k].attrs == s[k].attrs[StatusKey := status];
    r
  }

  /** Setting a status is idempotent, and setting the status a record already
      has changes nothing. */
  lemma SetStatusSettles(s: seq<Record>, id: Id, status: Value)
    ensures SetStatus(SetStatus(s, id, status).store, id, status) == SetStatus(s, id, status)
    ensures (match Find(s, id) case None => true case Some(x) => HasStatus(x, status))
            ==> SetStatus(s, id, status).store == s
  {
    UpdateIdempotent(s, id, map[StatusKey := status]);
    match Find(s, id)
    case None =>
    case Some(x) =>
      if HasStatus(x, status) {
        UpdateNoChange(s, id, map[StatusKey := status]);
      }
  }

  /** With unique ids, after setting the status the record with the id is
      among the records filtered by that status, and among no other status's. */
  lemma SetStatusFilter(s: seq<Record>, id: Id, status: Value, other: Value)
    requires UniqueIds(s) && HasId(s, id)
    ensures exists x :: x in WithAttr(SetStatus(s, id, status).store, StatusKey, Some(status)) && x.id == id
    ensures other != status ==>
      forall x :: x in WithAttr(SetStatus(s, id, status).store, StatusKey, Some(other)) ==> x.id != id
  {
    var r := SetStatus(s, id, status);
    var k := FindIndex(s, id).value;
    assert r.store[k] in r.store && HasStatus(r.store[k], status);
    forall x | x in r.store && x.id == id
      ensures x == r.store[k]
    {
      var j :| 0 <= j < |r.store| && r.store[j] == x;
      assert r.store[j].id == s[j].id;
    }
  }
}

=== FILE: js_values.dfy ===
/** The few JavaScript values the stores look at: record ids, attribute
    values, truthiness and `Math.max` over numeric ids. */
module JsValues {
  import opened Wrappers

  /** A record id compared with `===`. Numbers are integers here; `-Infinity`
      is what `Math.max()` returns for no arguments. */
  datatype Id = IntId(n: int) | NegInfinityId | StringId(s: string)

  /** An attribute value of a store record. `Dict` is a plain object of
      string fields (a template's per-channel bodies); `Opaque` stands for any
      other object the stores never look into. */
  datatype Value =
    | Text(s: string)
    | Number(n: int)
    | Flag(b: bool)
    | Dict(entries: map<string, string>)
    | Opaque(tag: string)

  /** JavaScript truthiness of a present value (`undefined` is None). */
  predicate Truthy(v: Option<Value>) {
    match v
    case None => false
    case Some(Text(s)) => s != ""
    case Some(Number(n)) => n != 0
    case Some(Flag(b)) => b
    case Some(_) => true
  }

  /** `obj[key]`: the attribute, or None for `undefined`. */
  function Lookup(attrs: map<string, Value>, key: string): (r: Option<Value>)
    ensures r.Some? <==> key in attrs
    ensures r.Some? ==> r.value == attrs[key]
  {
    if key in attrs then Some(attrs[key]) else None
  }

  /** `v || fallback`. */
  function Or(v: Option<Value>, fallback: Value): (r: Value)
    ensures Truthy(v) ==> Some(r) == v
    ensures !Truthy(v) ==> r == fallback
  {
    if Truthy(v) then v.value else fallback
  }

  /** `typeof id === 'number'`. */
  predicate IsNumber(id: Id) {
    !id.StringId?
  }

  /** `Math.max(a, b)` on numbers, `-Infinity` being below every integer. */
  function Max(a: Id, b: Id): (r: Id)
    requires IsNumber(a) && IsNumber(b)
    ensures r == a || r == b
    ensures a.IntId? && b.IntId? ==> r.n >= a.n && r.n >= b.n
    ensures r.NegInfinityId? <==> a.NegInfinityId? && b.NegInfinityId?
  {
    match (a, b)
    case (NegInfinityId, _) => b
    case (_, NegInfinityId) => a
    case (IntId(x), IntId(y)) => if x >= y then a else b
  }

  /** `x + 1`; `-Infinity + 1` is still `-Infinity`. */
  function Succ(a: Id): (r: Id)
    requires IsNumber(a)
    ensures a.IntId? ==> r == IntId(a.n + 1)
    ensures a.NegInfinityId? ==> r == a
  {
    match a
    case IntId(x) => IntId(x + 1)
    case _ => a
  }
}

=== FILE: message_types.dfy ===
/** The message-type store: the categories messages are filed under (system
    notice, work reminder, alert, ...), keyed by numeric id. */
module MessageTypes {
  import opened Wrappers
  import opened JsValues
  import opened Collection

  /** `getMessageTypeById`: the first type with the id, or nothing. */
  function GetMessageTypeById(types: seq<Record>, id: Id): (r: Option<Record>)
    ensures r.None? <==> !HasId(types, id)
    ensures r.Some? ==> r.value == types[FindIndex(types, id).value]
  {
    Find(types, id)
  }

  /** `addMessageType`: pushes the type under id `max(ids) + 1`. */
  function AddMessageType(types: seq<Record>, messageType: map<string, Value>): (r: Added)
    requires NumericIds(types)
    ensures |r.store| == |types| + 1 && r.store[..|types|] == types && r.store[|types|] == r.record
    ensures forall k :: k in messageType && k != "id" ==> Lookup(r.record.attrs, k) == Some(messageType[k])
    ensures forall k :: k in r.record.attrs ==> k in messageType && k != "id"
    ensures HasFiniteId(types) ==> r.record.id.IntId? && !HasId(types, r.record.id)
    ensures HasFiniteId(types) ==> forall i :: 0 <= i < |types| && types[i].id.IntId? ==> types[i].id.n < r.record.id.n
    ensures HasFiniteId(types) ==> exists i :: 0 <= i < |types| && types[i].id == IntId(r.record.id.n - 1)
    ensures !HasFiniteId(types) ==> r.record.id == NegInfinityId
    ensures UniqueIds(types) && HasFiniteId(types) ==> UniqueIds(r.store)
  {
    Add(types, messageType)
  }

  /** `updateMessageType`: merges the supplied fields into the first type with
      the id and returns true; false and no change when there is none. */
  function UpdateMessageType(types: seq<Record>, id: Id, patch: map<string, Value>): (r: Outcome)
    requires "id" !in patch
    ensures r.ok <==> HasId(types, id)
    ensures !r.ok ==> r.store == types
    ensures r.ok ==> var k := FindIndex(types, id).value;
      && |r.store| == |types| && r.store[k].id == id
      && Merged(types[k].attrs, patch, r.store[k].attrs)
      && forall j :: 0 <= j < |types| && j != k ==> r.store[j] == types[j]
  {
    Update(types, id, patch)
  }

  /** `deleteMessageType`: removes the first type with the id, keeping the
      others in order; false when there is none. */
  function DeleteMessageType(types: seq<Record>, id: Id): (r: Outcome)
    ensures r.ok <==> HasId(types, id)
    ensures !r.ok ==> r.store == types
    ensures r.ok ==> var k := FindIndex(types, id).value;
      && |r.store| == |types| - 1
      && (forall j :: 0 <= j < k ==> r.store[j] == types[j])
      && (forall j :: k <= j < |r.store| ==> r.store[j] == types[j + 1])
      && multiset(r.store) + multiset{types[k]} == multiset(types)
  {
    Delete(types, id)
  }
}

=== FILE: messages.dfy ===
/** The message store's read-state bookkeeping: a list of messages, each
    read or unread and filed under a message type, and an `unreadCount`
    that is recomputed from the list whenever a message is marked read. The
    store also holds the default parameter-mapping table, which it only
    replaces wholesale. */
module Messages {
  import opened Wrappers
  import opened JsValues
  import Seqs

  /** A message: its id, its `read` flag, the id of its `type` object, and
      the remaining fields (title, content, sender, ...). */
  datatype Message = Message(id: Id, read: bool, typeId: Id, attrs: map<string, Value>)

  /** One row of the default mapping table: a standard parameter and its
      field name per channel type. */
  datatype ParamMapping = ParamMapping(standardParam: string, mappings: map<string, string>)

  datatype Inbox = Inbox(messages: seq<Message>, unreadCount: int, defaultParamMappings: seq<ParamMapping>)

  /** `messages.filter(message => !message.read)`. */
  function Unread(ms: seq<Message>): (r: seq<Message>)
    ensures forall m :: m in r <==> m in ms && !m.read
    ensures forall m :: multiset(r)[m] == if !m.read then multiset(ms)[m] else 0
    ensures |r| <= |ms|
  {
    Seqs.Filter(ms, (m: Message) => !m.read)
  }

  /** The counter agrees with the list. */
  predicate CountConsistent(inbox: Inbox) {
    inbox.unreadCount == |Unread(inbox.messages)|
  }

  /** `updateUnreadCount`: the counter becomes the number of unread messages,
      so it lies between 0 and the list's length and is 0 exactly when every
      message is read. */
  function UpdateUnreadCount(inbox: Inbox): (r: Inbox)
    ensures CountConsistent(r)
    ensures 0 <= r.unreadCount <= |inbox.messages|
    ensures r.unreadCount == 0 <==> forall i :: 0 <= i < |inbox.messages| ==> inbox.messages[i].read
    ensures r.messages == inbox.messages && r.defaultParamMappings == inbox.defaultParamMappings
  {
    Seqs.FilterExtremes(inbox.messages, (m: Message) => !m.read);
    inbox.(unreadCount := |Unread(inbox.messages)|)
  }

  /** `messages.find(msg => msg.id === id)`, as an index. */
  function MessageIndex(ms: seq<Message>, id: Id): (r: Option<nat>)
    ensures r.None? <==> forall j :: 0 <= j < |ms| ==> ms[j].id != id
    ensures r.Some? ==> r.value < |ms| && ms[r.value].id == id
    ensures r.Some? ==> forall j :: 0 <= j < r.value ==> ms[j].id != id
  {
    Seqs.FirstIndex(ms, (m: Message) => m.id == id)
  }

  /** Reading one unread message removes exactly one entry from the unread list. */
  lemma {:induction false} UnreadAfterReading(ms: seq<Message>, k: nat)
    requires k < |ms| && !ms[k].read
    ensures |Unread(ms[k := ms[k].(read := true)])| == |Unread(ms)| - 1
  {
    var keep := (m: Message) => !m.read;
    var ms' := ms[k := ms[k].(read := true)];
    assert ms == ms[..k] + ([ms[k]] + ms[k + 1..]);
    assert ms' == ms[..k] + ([ms'[k]] + ms[k + 1..]);
    Seqs.FilterConcat(ms[..k], [ms[k]] + ms[k + 1..], keep);
    Seqs.FilterConcat([ms[k]], ms[k + 1..], keep);
    Seqs.FilterConcat(ms[..k], [ms'[k]] + ms[k + 1..], keep);
    Seqs.FilterConcat([ms'[k]], ms[k + 1..], keep);
    assert Seqs.Filter([ms[k]], keep) == [ms[k]];
    assert Seqs.Filter([ms'[k]], keep) == [];
  }

  /** The message at `k`, unread, becomes read and the counter is recomputed:
      one unread message fewer. */
  function ReadAt(inbox: Inbox, k: nat): (r: Inbox)
    requires k < |inbox.messages| && !inbox.messages[k].read
    ensures r.messages == inbox.messages[k := inbox.messages[k].(read := true)]
    ensures r.defaultParamMappings == inbox.defaultParamMappings
    ensures CountConsistent(r) && r.unreadCount == |Unread(inbox.messages)| - 1
  {
    var ms := inbox.messages;
    UnreadAfterReading(ms, k);
    UpdateUnreadCount(inbox.(messages := ms[k := ms[k].(read := true)]))
  }

  /** `markAsRead`: the first message with the id, when unread, becomes read
      and the counter is recomputed; an unknown id or a read message changes
      nothing. Only that message's `read` field changes, and a consistent
      counter drops by exactly one. */
  function MarkAsRead(inbox: Inbox, id: Id): (r: Inbox)
    ensures MessageIndex(inbox.messages, id).None? ==> r == inbox
    ensures var i := MessageIndex(inbox.messages, id);
      i.Some? && inbox.messages[i.value].read ==> r == inbox
    ensures var i := MessageIndex(inbox.messages, id);
      i.Some? && !inbox.messages[i.value].read ==>
        && r.messages == inbox.messages[i.value := inbox.messages[i.value].(read := true)]
        && r.defaultParamMappings == inbox.defaultParamMappings
        && CountConsistent(r)
        && (CountConsistent(inbox) ==> r.unreadCount == inbox.unreadCount - 1)
  {
    var ms := inbox.messages;
    match MessageIndex(ms, id)
    case None => inbox
    case Some(k) =>
      if ms[k].read then inbox else ReadAt(inbox, k)
  }

  /** `markAllAsRead`: every message becomes read, nothing else about it
      changes, and the counter becomes 0. */
  function MarkAllAsRead(inbox: Inbox): (r: Inbox)
    ensures |r.messages| == |inbox.messages|
    ensures forall i :: 0 <= i < |r.messages| ==> r.messages[i] == inbox.messages[i].(read := true)
    ensures r.unreadCount == 0 && CountConsistent(r)
    ensures r.defaultParamMappings == inbox.defaultParamMappings
  {
    var ms := inbox.messages;
    UpdateUnreadCount(inbox.(messages := seq(|ms|, i requires 0 <= i < |ms| => ms[i].(read := true))))
  }

  /** Reading flags never moves a message, so the search by id is unaffected. */
  lemma MessageIndexSameIds(ms: seq<Message>, ns: seq<Message>, id: Id)
    requires |ms| == |ns| && forall j :: 0 <= j < |ms| ==> ms[j].id == ns[j].id
    ensures MessageIndex(ms, id) == MessageIndex(ns, id)
  {
    var a, b := MessageIndex(ms, id), MessageIndex(ns, id);
    if a.Some? && b.Some? {
      assert !(a.value < b.value) && !(b.value < a.value);
    }
  }

  /** Once the message with the id is read, `markAsRead` of that id changes nothing. */
  lemma ReadAtSettles(inbox: Inbox, id: Id, k: nat)
    requires MessageIndex(inbox.messages, id) == Some(k) && !inbox.messages[k].read
    ensures MarkAsRead(ReadAt(inbox, k), id) == ReadAt(inbox, k)
  {
    var once := ReadAt(inbox, k);
    MessageIndexSameIds(inbox.messages, once.messages, id);
    assert once.messages[k].read;
  }

  /** Marking the same message read twice is the same as once. */
  lemma MarkAsReadIdempotent(inbox: Inbox, id: Id)
    ensures MarkAsRead(MarkAsRead(inbox, id), id) == MarkAsRead(inbox, id)
  {
    var ms := inbox.messages;
    match MessageIndex(ms, id)
    case None =>
    case Some(k) =>
      if !ms[k].read {
        ReadAtSettles(inbox, id, k);
      }
  }

  /** Marking everything read twice is the same as once. */
  lemma MarkAllAsReadIdempotent(inbox: Inbox)
    ensures MarkAllAsRead(MarkAllAsRead(inbox)) == MarkAllAsRead(inbox)
  {
    var all := MarkAllAsRead(inbox);
    assert MarkAllAsRead(all).messages == all.messages;
  }

  /** `markAllAsRead` sees only what is left of each message once it is read. */
  lemma MarkAllAsReadForgetsFlags(a: Inbox, b: Inbox)
    requires |a.messages| == |b.messages| && a.defaultParamMappings == b.defaultParamMappings
    requires forall j :: 0 <= j < |a.messages| ==> a.messages[j].(read := true) == b.messages[j].(read := true)
    ensures MarkAllAsRead(a) == MarkAllAsRead(b)
  {
    assert MarkAllAsRead(a).messages == MarkAllAsRead(b).messages;
  }

  /** Reading one message makes no difference to a later `markAllAsRead`. */
  lemma ReadAtAbsorbed(inbox: Inbox, k: nat)
    requires k < |inbox.messages| && !inbox.messages[k].read
    ensures MarkAllAsRead(ReadAt(inbox, k)) == MarkAllAsRead(inbox)
  {
    var ms := inbox.messages;
    var read := ReadAt(inbox, k).messages;
    assert forall j :: 0 <= j < |ms| ==> read[j].(read := true) == ms[j].(read := true);
    MarkAllAsReadForgetsFlags(ReadAt(inbox, k), inbox);
  }

  /** An earlier single `markAsRead` makes no difference to `markAllAsRead`. */
  lemma MarkAllAsReadAbsorbs(inbox: Inbox, id: Id)
    ensures MarkAllAsRead(MarkAsRead(inbox, id)) == MarkAllAsRead(inbox)
  {
    var ms := inbox.messages;
    match MessageIndex(ms, id)
    case None =>
    case Some(k) =>
      if !ms[k].read {
        ReadAtAbsorbed(inbox, k);
      }
  }

  /** `getMessagesByType`: exactly the messages whose type id is `typeId`. */
  function GetMessagesByType(ms: seq<Message>, typeId: Id): (r: seq<Message>)
    ensures forall m :: m in r <==> m in ms && m.typeId == typeId
    ensures forall m :: multiset(r)[m] == if m.typeId == typeId then multiset(ms)[m] else 0
  {
    Seqs.Filter(ms, (m: Message) => m.typeId == typeId)
  }

  /** The type filter keeps messages in their original order. */
  lemma MessagesByTypeKeepOrder(a: seq<Message>, b: seq<Message>, typeId: Id)
    ensures GetMessagesByType(a + b, typeId) == GetMessagesByType(a, typeId) + GetMessagesByType(b, typeId)
  {
    Seqs.FilterConcat(a, b, (m: Message) => m.typeId == typeId);
  }

  /** `updateDefaultParamMappings`: the table is replaced by the argument; the
      messages and the counter are untouched. */
  function UpdateDefaultParamMappings(inbox: Inbox, mappings: seq<ParamMapping>): (r: Inbox)
    ensures r.defaultParamMappings == mappings
    ensures r.messages == inbox.messages && r.unreadCount == inbox.unreadCount
  {
    inbox.(defaultParamMappings := mappings)
  }
}

=== FILE: placeholders.dfy ===
/** Template preview text: every `{name}` of a channel body is replaced,
    name by name in the order of the data object's keys, by the supplied
    value, or left as it is when the value is falsy.

    `previewTemplate` builds `new RegExp('{' + name + '}', 'g')` and calls
    `String.prototype.replace` with it. For identifier names the pattern
    matches the literal text `{name}`, and for values without `$` the
    replacement is the literal value, so a global replace is the left-to-right,
    non-overlapping replacement `ReplaceAll` below. */
module Placeholders {

  /** The literal text `{name}`. */
  function Placeholder(name: string): (r: string)
    ensures |r| == |name| + 2 && r[0] == '{' && r[|r| - 1] == '}'
    ensures r[1..|r| - 1] == name
  {
    "{" + name + "}"
  }

  predicate NoOpenBrace(s: string) {
    forall i :: 0 <= i < |s| ==> s[i] != '{'
  }

  predicate BraceFree(s: string) {
    forall i :: 0 <= i < |s| ==> s[i] != '{' && s[i] != '}'
  }

  predicate StartsWith(s: string, p: string) {
    |p| <= |s| && s[..|p|] == p
  }

  /** `s.includes(p)`. */
  predicate Contains(s: string, p: string)
    decreases |s|
  {
    StartsWith(s, p) || (|s| > 0 && Contains(s[1..], p))
  }

  /** No `{` opens while an earlier `{` is still unclosed (`open`). A body
      written as text with `{name}` tokens and no nested braces has this shape. */
  predicate BracesFrom(s: string, open: bool)
    decreases |s|
  {
    if |s| == 0 then true
    else if s[0] == '{' then !open && BracesFrom(s[1..], true)
    else if s[0] == '}' then BracesFrom(s[1..], false)
    else BracesFrom(s[1..], open)
  }

  predicate WellBraced(s: string) {
    BracesFrom(s, false)
  }

  /** `s.replace(/pat/g, rep)` for a literal pattern: scan from the left,
      replace each match and continue after it. */
  function ReplaceAll(s: string, pat: string, rep: string): string
    requires |pat| > 0
    decreases |s|
  {
    if |s| == 0 then ""
    else if StartsWith(s, pat) then rep + ReplaceAll(s[|pat|..], pat, rep)
    else [s[0]] + ReplaceAll(s[1..], pat, rep)
  }

  /** One round of the inner loop: `content.replace(regex, data[v] || '{v}')`
      (the empty string is the falsy value a string can have). */
  function Substitute(body: string, name: string, value: string): string {
    ReplaceAll(body, Placeholder(name), if value != "" then value else Placeholder(name))
  }

  /** The whole inner loop: the data's entries applied in key order. */
  function Render(body: string, data: seq<(string, string)>): string
    decreases |data|
  {
    if |data| == 0 then body
    else Render(Substitute(body, data[0].0, data[0].1), data[1..])
  }

  // ---------------------------------------------------------------------
  // Facts about strings

  lemma ContainsExtend(x: string, y: string, p: string)
    requires Contains(y, p)
    ensures Contains(x + y, p)
    decreases |x|
  {
    if |x| == 0 {
      assert x + y == y;
    } else {
      assert (x + y)[1..] == x[1..] + y;
      ContainsExtend(x[1..], y, p);
    }
  }

  /** An occurrence of a `{`-headed pattern cannot start inside text without `{`. */
  lemma {:induction false} ContainsSkip(x: string, y: string, p: string)
    requires NoOpenBrace(x) && |p| > 0 && p[0] == '{'
    requires Contains(x + y, p)
    ensures Contains(y, p)
    decreases |x|
  {
    if |x| == 0 {
      assert x + y == y;
    } else {
      assert (x + y)[0] == x[0];
      assert !StartsWith(x + y, p);
      assert (x + y)[1..] == x[1..] + y;
      ContainsSkip(x[1..], y, p);
    }
  }

  lemma ContainsSuffix(s: string, k: nat, p: string)
    requires k <= |s| && Contains(s[k..], p)
    ensures Contains(s, p)
  {
    assert s == s[..k] + s[k..];
    ContainsExtend(s[..k], s[k..], p);
  }

  lemma StartsWithHead(s: string, p: string)
    ensures |p| > 0 && StartsWith(s, p) ==> s[0] == p[0]
  {
    if |p| > 0 && StartsWith(s, p) {
      assert s[..|p|][0] == p[0];
    }
  }

  lemma StartsWithCons(c: char, x: string, y: string)
    ensures StartsWith([c] + x, [c] + y) <==> StartsWith(x, y)
  {
    if |y| <= |x| {
      assert ([c] + x)[..|y| + 1] == [c] + x[..|y|];
      if ([c] + x)[..|y| + 1] == [c] + y {
        assert x[..|y|] == ([c] + x[..|y|])[1..] == ([c] + y)[1..] == y;
      }
    }
  }

  lemma ContainsCons(c: char, x: string, p: string)
    ensures Contains([c] + x, p) <==> StartsWith([c] + x, p) || Contains(x, p)
  {
    assert ([c] + x)[1..] == x;
  }

  /** The first `}` of a text that starts with `{v}` is the one closing it. */
  lemma PlaceholderCloses(s: string, v: string)
    requires BraceFree(v) && StartsWith(s, Placeholder(v))
    ensures s[|v| + 1] == '}'
    ensures forall i :: 1 <= i <= |v| ==> s[i] != '}'
  {
    var p := Placeholder(v);
    assert s[|v| + 1] == p[|v| + 1];
    forall i | 1 <= i <= |v|
      ensures s[i] != '}'
    {
      assert s[i] == p[i] == v[i - 1];
    }
  }

  /** Two placeholders cannot both start the same text unless they are equal. */
  lemma PlaceholderPrefixUnique(s: string, v: string, w: string)
    requires BraceFree(v) && BraceFree(w)
    requires StartsWith(s, Placeholder(v)) && StartsWith(s, Placeholder(w))
    ensures v == w
  {
    var p, q := Placeholder(v), Placeholder(w);
    // the first `}` of s closes both placeholders
    PlaceholderCloses(s, v);
    PlaceholderCloses(s, w);
    assert |v| == |w|;
    assert p == s[..|p|] == q;
    assert v == p[1..|p| - 1] == q[1..|q| - 1] == w;
  }

  /** Text starting with `{v}` is `{`, then `v}`, then the rest. */
  lemma PlaceholderSplit(s: string, v: string)
    requires StartsWith(s, Placeholder(v))
    ensures s[1..] == (v + "}") + s[|v| + 2..]
    ensures s == "{" + (v + "}" + s[|v| + 2..])
  {
    var p := Placeholder(v);
    assert s == s[..|p|] + s[|p|..];
    assert p == "{" + (v + "}");
  }

  lemma BracesSkip(x: string, y: string, open: bool)
    requires BraceFree(x)
    ensures BracesFrom(x + y, open) <==> BracesFrom(y, open)
    decreases |x|
  {
    if |x| == 0 {
      assert x + y == y;
    } else {
      assert (x + y)[0] == x[0];
      assert (x + y)[1..] == x[1..] + y;
      BracesSkip(x[1..], y, open);
    }
  }

  // ---------------------------------------------------------------------
  // Facts about one global replace

  /** Text before the first `{` is copied unchanged. */
  lemma {:induction false} ReplaceAllCopies(x: string, y: string, pat: string, rep: string)
    requires |pat| > 0 && pat[0] == '{' && NoOpenBrace(x)
    ensures ReplaceAll(x + y, pat, rep) == x + ReplaceAll(y, pat, rep)
    decreases |x|
  {
    if |x| == 0 {
      assert x + y == y;
    } else {
      var s := x + y;
      StartsWithHead(s, pat);
      assert s[0] == x[0] != '{';
      assert s[1..] == x[1..] + y;
      assert NoOpenBrace(x[1..]);
      ReplaceAllCopies(x[1..], y, pat, rep);
      calc {
        ReplaceAll(s, pat, rep);
        [s[0]] + ReplaceAll(s[1..], pat, rep);
        [x[0]] + (x[1..] + ReplaceAll(y, pat, rep));
        { assert x == [x[0]] + x[1..]; }
        x + ReplaceAll(y, pat, rep);
      }
    }
  }

  /** Each occurrence of the placeholder, scanning from the left, becomes the
      replacement, and the text between occurrences is kept. */
  lemma {:induction false} ReplaceAllSplit(x: string, y: string, pat: string, rep: string)
    requires |pat| > 0 && pat[0] == '{' && NoOpenBrace(x)
    ensures ReplaceAll(x + pat + y, pat, rep) == x + rep + ReplaceAll(y, pat, rep)
  {
    assert x + pat + y == x + (pat + y);
    ReplaceAllCopies(x, pat + y, pat, rep);
    assert StartsWith(pat + y, pat);
    assert (pat + y)[|pat|..] == y;
  }

  /** Text without the pattern comes back unchanged. */
  lemma {:induction false} ReplaceAllAbsent(s: string, pat: string, rep: string)
    requires |pat| > 0 && !Contains(s, pat)
    ensures ReplaceAll(s, pat, rep) == s
    decreases |s|
  {
    if |s| > 0 {
      assert !StartsWith(s, pat) && !Contains(s[1..], pat);
      ReplaceAllAbsent(s[1..], pat, rep);
      assert s == [s[0]] + s[1..];
    }
  }

  /** Replacing the pattern by itself changes nothing. */
  lemma {:induction false} ReplaceAllSelf(s: string, pat: string)
    requires |pat| > 0
    ensures ReplaceAll(s, pat, pat) == s
    decreases |s|
  {
    if |s| > 0 {
      if StartsWith(s, pat) {
        ReplaceAllSelf(s[|pat|..], pat);
        assert s == s[..|pat|] + s[|pat|..];
      } else {
        ReplaceAllSelf(s[1..], pat);
        assert s == [s[0]] + s[1..];
      }
    }
  }

  /** Brace-free replacements keep a body free of nested braces. */
  lemma {:induction false} ReplaceAllKeepsBraces(s: string, open: bool, v: string, rep: string)
    requires BraceFree(v) && BraceFree(rep) && BracesFrom(s, open)
    ensures BracesFrom(ReplaceAll(s, Placeholder(v), rep), open)
    decreases |s|
  {
    var p := Placeholder(v);
    if |s| > 0 {
      if StartsWith(s, p) {
        var rest := s[|p|..];
        assert s == "{" + (v + "}" + rest);
        assert s[1..] == v + ("}" + rest);
        BracesSkip(v, "}" + rest, true);
        assert ("}" + rest)[1..] == rest;
        ReplaceAllKeepsBraces(rest, false, v, rep);
        BracesSkip(rep, ReplaceAll(rest, p, rep), false);
      } else {
        var o := if s[0] == '{' then true else if s[0] == '}' then false else open;
        ReplaceAllKeepsBraces(s[1..], o, v, rep);
        var t := ReplaceAll(s[1..], p, rep);
        assert ([s[0]] + t)[0] == s[0] && ([s[0]] + t)[1..] == t;
      }
    }
  }

  /** Inside an open brace, the replaced text cannot start with `w}` unless
      the original already did. */
  lemma {:induction false} NoClosingAfterOpen(t: string, v: string, rep: string, w: string)
    requires BraceFree(v) && BraceFree(w) && BraceFree(rep)
    requires BracesFrom(t, true) && !StartsWith(t, w + "}")
    ensures !StartsWith(ReplaceAll(t, Placeholder(v), rep), w + "}")
    decreases |t|
  {
    var p := Placeholder(v);
    if |t| > 0 {
      assert t[0] != '{';
      assert !StartsWith(t, p);
      var r := ReplaceAll(t[1..], p, rep);
      assert ReplaceAll(t, p, rep) == [t[0]] + r;
      StartsWithHead([t[0]] + r, w + "}");
      if |w| > 0 && t[0] == w[0] && t[0] != '}' {
        assert BracesFrom(t[1..], true);
        assert t == [t[0]] + t[1..];
        assert w + "}" == [w[0]] + (w[1..] + "}");
        StartsWithCons(t[0], t[1..], w[1..] + "}");
        NoClosingAfterOpen(t[1..], v, rep, w[1..]);
        StartsWithCons(t[0], r, w[1..] + "}");
      } else if |w| == 0 {
        assert w + "}" == "}";
        assert t[0] != '}';
      } else {
        assert (w + "}")[0] == w[0];
      }
    }
  }

  /** A character kept in front of replaced text does not start `{w}` when it
      did not start it before. */
  lemma HeadNotPlaceholder(c: char, t: string, v: string, rep: string, w: string)
    requires BraceFree(v) && BraceFree(w) && BraceFree(rep)
    requires c == '{' ==> BracesFrom(t, true)
    requires !StartsWith([c] + t, Placeholder(w))
    ensures !StartsWith([c] + ReplaceAll(t, Placeholder(v), rep), Placeholder(w))
  {
    var q := Placeholder(w);
    var r := ReplaceAll(t, Placeholder(v), rep);
    if c == '{' {
      assert q == [c] + (w + "}");
      StartsWithCons(c, t, w + "}");
      NoClosingAfterOpen(t, v, rep, w);
      StartsWithCons(c, r, w + "}");
    } else {
      StartsWithHead([c] + r, q);
    }
  }

  /** A global replace with a brace-free value leaves no occurrence of the
      replaced placeholder in a body without nested braces, and creates no new
      occurrence of any other placeholder `{w}`. */
  lemma {:induction false} ReplaceAllClears(s: string, open: bool, v: string, rep: string, w: string)
    requires BraceFree(v) && BraceFree(w) && BraceFree(rep)
    requires BracesFrom(s, open)
    requires w == v || !Contains(s, Placeholder(w))
    ensures !Contains(ReplaceAll(s, Placeholder(v), rep), Placeholder(w))
    decreases |s|
  {
    var p, q := Placeholder(v), Placeholder(w);
    if |s| == 0 {
      assert ReplaceAll(s, p, rep) == "";
    } else if StartsWith(s, p) {
      var rest := s[|p|..];
      assert s == "{" + (v + "}" + rest);
      assert s[1..] == v + ("}" + rest);
      BracesSkip(v, "}" + rest, true);
      assert ("}" + rest)[1..] == rest;
      if w != v && Contains(rest, q) {
        ContainsSuffix(s, |p|, q);
      }
      ReplaceAllClears(rest, false, v, rep, w);
      var r := ReplaceAll(rest, p, rep);
      if Contains(rep + r, q) {
        ContainsSkip(rep, r, q);
      }
    } else {
      var t := s[1..];
      var o := if s[0] == '{' then true else if s[0] == '}' then false else open;
      ReplaceAllClears(t, o, v, rep, w);
      var r := ReplaceAll(t, p, rep);
      assert ReplaceAll(s, p, rep) == [s[0]] + r;
      ContainsCons(s[0], r, q);
      assert !StartsWith(s, q);
      assert s == [s[0]] + t;
      HeadNotPlaceholder(s[0], t, v, rep, w);
    }
  }

  /** A `{w}` at the head of a text that does not start with `{v}` is copied
      to the head of the result. */
  lemma KeepsPlaceholderAtHead(s: string, v: string, rep: string, w: string)
    requires BraceFree(w) && !StartsWith(s, Placeholder(v)) && StartsWith(s, Placeholder(w))
    ensures StartsWith(ReplaceAll(s, Placeholder(v), rep), Placeholder(w))
  {
    var p, q := Placeholder(v), Placeholder(w);
    PlaceholderSplit(s, w);
    var tail := s[|w| + 2..];
    assert ReplaceAll(s, p, rep) == "{" + ReplaceAll((w + "}") + tail, p, rep);
    ReplaceAllCopies(w + "}", tail, p, rep);
    assert ReplaceAll(s, p, rep) == q + ReplaceAll(tail, p, rep);
  }

  /** Replacing `{v}` never destroys an occurrence of another placeholder `{w}`. */
  lemma {:induction false} ReplaceAllKeepsOthers(s: string, v: string, rep: string, w: string)
    requires BraceFree(v) && BraceFree(w) && v != w
    requires Contains(s, Placeholder(w))
    ensures Contains(ReplaceAll(s, Placeholder(v), rep), Placeholder(w))
    decreases |s|
  {
    var p, q := Placeholder(v), Placeholder(w);
    if StartsWith(s, p) {
      var rest := s[|p|..];
      if StartsWith(s, q) {
        PlaceholderPrefixUnique(s, v, w);
      }
      PlaceholderSplit(s, v);
      ContainsSkip(v + "}", rest, q);
      ReplaceAllKeepsOthers(rest, v, rep, w);
      ContainsExtend(rep, ReplaceAll(rest, p, rep), q);
    } else {
      var t := s[1..];
      var r := ReplaceAll(t, p, rep);
      assert ReplaceAll(s, p, rep) == [s[0]] + r;
      ContainsCons(s[0], r, q);
      if StartsWith(s, q) {
        KeepsPlaceholderAtHead(s, v, rep, w);
      } else {
        ContainsCons(s[0], t, q);
        assert s == [s[0]] + t;
        ReplaceAllKeepsOthers(t, v, rep, w);
      }
    }
  }

  // ---------------------------------------------------------------------
  // Facts about the whole substitution

  /** Every data name is free of braces; the values may hold anything. */
  predicate PlainNames(data: seq<(string, string)>) {
    forall i :: 0 <= i < |data| ==> BraceFree(data[i].0)
  }

  /** Every data name and value is brace-free. */
  predicate PlainData(data: seq<(string, string)>) {
    forall i :: 0 <= i < |data| ==> BraceFree(data[i].0) && BraceFree(data[i].1)
  }

  /** With only falsy values (in particular with no data) a body is unchanged. */
  lemma {:induction false} RenderFalsyKeepsBody(body: string, data: seq<(string, string)>)
    requires forall i :: 0 <= i < |data| ==> data[i].1 == ""
    ensures Render(body, data) == body
    decreases |data|
  {
    if |data| > 0 {
      ReplaceAllSelf(body, Placeholder(data[0].0));
      RenderFalsyKeepsBody(body, data[1..]);
    }
  }

  lemma {:induction false} RenderKeepsClear(body: string, data: seq<(string, string)>, w: string)
    requires WellBraced(body) && PlainData(data) && BraceFree(w)
    requires !Contains(body, Placeholder(w))
    ensures WellBraced(Render(body, data))
    ensures !Contains(Render(body, data), Placeholder(w))
    decreases |data|
  {
    if |data| > 0 {
      var (n, val) := data[0];
      if val != "" {
        ReplaceAllKeepsBraces(body, false, n, val);
        ReplaceAllClears(body, false, n, val, w);
      } else {
        ReplaceAllSelf(body, Placeholder(n));
      }
      RenderKeepsClear(Substitute(body, n, val), data[1..], w);
    }
  }

  /** Every name supplied with a truthy value is fully substituted: no `{name}`
      remains, provided the values are brace-free and the body has no nested
      braces (see `NestedBracesDefeatSubstitution` for why). */
  lemma {:induction false} RenderResolves(body: string, data: seq<(string, string)>)
    requires WellBraced(body) && PlainData(data)
    ensures WellBraced(Render(body, data))
    ensures forall i :: 0 <= i < |data| && data[i].1 != "" ==>
      !Contains(Render(body, data), Placeholder(data[i].0))
    decreases |data|
  {
    if |data| > 0 {
      var (n, val) := data[0];
      var next := Substitute(body, n, val);
      if val != "" {
        ReplaceAllKeepsBraces(body, false, n, val);
        ReplaceAllClears(body, false, n, val, n);
        RenderKeepsClear(next, data[1..], n);
      } else {
        ReplaceAllSelf(body, Placeholder(n));
      }
      RenderResolves(next, data[1..]);
      forall i | 1 <= i < |data| && data[i].1 != ""
        ensures !Contains(Render(body, data), Placeholder(data[i].0))
      {
        assert data[i] == data[1..][i - 1];
      }
    }
  }

  /** A placeholder whose name is not supplied, or is supplied only with falsy
      values, survives the substitution. */
  lemma {:induction false} RenderKeepsUnresolved(body: string, data: seq<(string, string)>, w: string)
    requires PlainNames(data) && BraceFree(w)
    requires forall i :: 0 <= i < |data| && data[i].0 == w ==> data[i].1 == ""
    requires Contains(body, Placeholder(w))
    ensures Contains(Render(body, data), Placeholder(w))
    decreases |data|
  {
    if |data| > 0 {
      var (n, val) := data[0];
      if val != "" {
        ReplaceAllKeepsOthers(body, n, val, w);
      } else {
        ReplaceAllSelf(body, Placeholder(n));
      }
      RenderKeepsUnresolved(Substitute(body, n, val), data[1..], w);
    }
  }

  /** Without the nested-brace condition a placeholder can survive: in
      `{{x}}` the inner `{x}` becomes `x`, and the outer braces then read `{x}`. */
  lemma NestedBracesDefeatSubstitution()
    ensures !WellBraced("{{x}}")
    ensures Render("{{x}}", [("x", "x")]) == "{x}"
    ensures Contains(Render("{{x}}", [("x", "x")]), Placeholder("x"))
  {
    var p := Placeholder("x");
    assert p == "{x}";
    assert !StartsWith("{{x}}", p);
    assert "{{x}}"[1..] == "{x}}";
    assert StartsWith("{x}}", p);
    assert "{x}}"[3..] == "}";
    assert !StartsWith("}", p);
    assert "}"[1..] == "";
    assert ReplaceAll("}", p, "x") == "}";
    assert ReplaceAll("{x}}", p, "x") == "x}";
    assert Render("{{x}}", [("x", "x")]) == ReplaceAll("{{x}}", p, "x");
    assert StartsWith("{x}", p);
  }
}

=== FILE: seqs.dfy ===
/** The two array searches every store uses: `Array.prototype.filter` and
    `Array.prototype.findIndex` (whose `find` is the element at that index). */
module Seqs {
  import opened Wrappers

  /** The elements that satisfy `keep`, in their original order, each as often
      as it occurs in `s`. */
  function Filter<T(==, !new)>(s: seq<T>, keep: T -> bool): (r: seq<T>)
    ensures |r| <= |s|
    ensures forall x :: x in r <==> x in s && keep(x)
    ensures forall x :: multiset(r)[x] == if keep(x) then multiset(s)[x] else 0
  {
    if |s| == 0 then []
    else
      assert s == [s[0]] + s[1..];
      var rest := Filter(s[1..], keep);
      if keep(s[0]) then [s[0]] + rest else rest
  }

  /** Filtering distributes over concatenation, so the relative order of the
      kept elements is the order they had in the input. */
  lemma {:induction false} FilterConcat<T(!new)>(a: seq<T>, b: seq<T>, keep: T -> bool)
    ensures Filter(a + b, keep) == Filter(a, keep) + Filter(b, keep)
  {
    if |a| == 0 {
      assert a + b == b;
    } else {
      assert (a + b)[0] == a[0];
      assert (a + b)[1..] == a[1..] + b;
      FilterConcat(a[1..], b, keep);
      if keep(a[0]) {
        calc {
          Filter(a + b, keep);
          [a[0]] + Filter(a[1..] + b, keep);
          [a[0]] + (Filter(a[1..], keep) + Filter(b, keep));
          ([a[0]] + Filter(a[1..], keep)) + Filter(b, keep);
        }
      }
    }
  }

  /** Keeping every element returns the input unchanged. */
  lemma {:induction false} FilterAllKept<T(!new)>(s: seq<T>, keep: T -> bool)
    requires forall i :: 0 <= i < |s| ==> keep(s[i])
    ensures Filter(s, keep) == s
  {
    if |s| > 0 {
      assert forall i :: 1 <= i < |s| ==> s[i] == s[1..][i - 1];
      FilterAllKept(s[1..], keep);
      assert s == [s[0]] + s[1..];
    }
  }

  /** Dropping any element makes the result strictly shorter. */
  lemma {:induction false} FilterDropShortens<T(!new)>(s: seq<T>, keep: T -> bool, k: nat)
    requires k < |s| && !keep(s[k])
    ensures |Filter(s, keep)| < |s|
  {
    if k > 0 {
      assert s[k] == s[1..][k - 1];
      FilterDropShortens(s[1..], keep, k - 1);
    }
  }

  /** The filter returns its whole input exactly when every element is kept,
      and nothing exactly when no element is. */
  lemma FilterExtremes<T(!new)>(s: seq<T>, keep: T -> bool)
    ensures Filter(s, keep) == s <==> forall i :: 0 <= i < |s| ==> keep(s[i])
    ensures Filter(s, keep) == [] <==> forall i :: 0 <= i < |s| ==> !keep(s[i])
  {
    if forall i :: 0 <= i < |s| ==> keep(s[i]) {
      FilterAllKept(s, keep);
    } else {
      var k :| 0 <= k < |s| && !keep(s[k]);
      FilterDropShortens(s, keep, k);
    }
    if Filter(s, keep) != [] {
      var x := Filter(s, keep)[0];
      assert x in Filter(s, keep);
    }
  }

  /** Index of the first element satisfying `p` (`findIndex`; None for -1). */
  function FirstIndex<T>(s: seq<T>, p: T -> bool): (r: Option<nat>)
    ensures r.None? <==> forall j :: 0 <= j < |s| ==> !p(s[j])
    ensures r.Some? ==> r.value < |s| && p(s[r.value])
    ensures r.Some? ==> forall j :: 0 <= j < r.value ==> !p(s[j])
  {
    if |s| == 0 then None
    else if p(s[0]) then Some(0)
    else
      match FirstIndex(s[1..], p)
      case None => None
      case Some(k) => Some(k + 1)
  }
}

=== FILE: systems.dfy ===
/** The system store: the external systems that send through the message
    center, each with a numeric id and a `status` of `enabled` or `disabled`. */
module Systems {
  import opened Wrappers
  import opened JsValues
  import opened Collection

  /** `getSystemById`: the first system with the id, or nothing. */
  function GetSystemById(systems: seq<Record>, id: Id): (r: Option<Record>)
    ensures r.None? <==> !HasId(systems, id)
    ensures r.Some? ==> r.value == systems[FindIndex(systems, id).value]
  {
    Find(systems, id)
  }

  /** `getEnabledSystems`: exactly the systems whose status is `enabled`,
      in their original order (see `Collection.WithAttrOrder`). */
  function GetEnabledSystems(systems: seq<Record>): (r: seq<Record>)
    ensures forall x :: x in r <==> x in systems && HasStatus(x, Enabled)
    ensures forall x :: multiset(r)[x] == if HasStatus(x, Enabled) then multiset(systems)[x] else 0
  {
    WithAttr(systems, StatusKey, Some(Enabled))
  }

  /** `addSystem`: pushes the system under id `max(ids) + 1`, with status
      `system.status || 'enabled'`. */
  function AddSystem(systems: seq<Record>, system: map<string, Value>): (r: Added)
    requires NumericIds(systems)
    ensures |r.store| == |systems| + 1 && r.store[..|systems|] == systems && r.store[|systems|] == r.record
    ensures Truthy(Lookup(system, StatusKey)) ==> HasStatus(r.record, system[StatusKey])
    ensures !Truthy(Lookup(system, StatusKey)) ==> HasStatus(r.record, Enabled)
    ensures forall k :: k in system && k != "id" && k != StatusKey ==> Lookup(r.record.attrs, k) == Some(system[k])
    ensures forall k :: k in r.record.attrs ==> (k in system && k != "id") || k == StatusKey
    ensures HasFiniteId(systems) ==> r.record.id.IntId? && !HasId(systems, r.record.id)
    ensures HasFiniteId(systems) ==> forall i :: 0 <= i < |systems| && systems[i].id.IntId? ==> systems[i].id.n < r.record.id.n
    ensures HasFiniteId(systems) ==> exists i :: 0 <= i < |systems| && systems[i].id == IntId(r.record.id.n - 1)
    ensures !HasFiniteId(systems) ==> r.record.id == NegInfinityId
    ensures UniqueIds(systems) && HasFiniteId(systems) ==> UniqueIds(r.store)
  {
    Add(systems, system[StatusKey := Or(Lookup(system, StatusKey), Enabled)])
  }

  /** `updateSystem`: merges the supplied fields into the first system with
      the id; false and no change when there is none. */
  function UpdateSystem(systems: seq<Record>, id: Id, patch: map<string, Value>): (r: Outcome)
    requires "id" !in patch
    ensures r.ok <==> HasId(systems, id)
    ensures !r.ok ==> r.store == systems
    ensures r.ok ==> var k := FindIndex(systems, id).value;
      && |r.store| == |systems| && r.store[k].id == id
      && Merged(systems[k].attrs, patch, r.store[k].attrs)
      && forall j :: 0 <= j < |systems| && j != k ==> r.store[j] == systems[j]
  {
    Update(systems, id, patch)
  }

  /** `deleteSystem`: removes the first system with the id, keeping the
      others in order. */
  function DeleteSystem(systems: seq<Record>, id: Id): (r: Outcome)
    ensures r.ok <==> HasId(systems, id)
    ensures !r.ok ==> r.store == systems
    ensures r.ok ==> var k := FindIndex(systems, id).value;
      && |r.store| == |systems| - 1
      && (forall j :: 0 <= j < k ==> r.store[j] == systems[j])
      && (forall j :: k <= j < |r.store| ==> r.store[j] == systems[j + 1])
    ensures UniqueIds(systems) ==> UniqueIds(r.store) && !HasId(r.store, id)
  {
    Delete(systems, id)
  }

  /** `enableSystem`: sets the found system's status to `enabled`. */
  function EnableSystem(systems: seq<Record>, id: Id): (r: Outcome)
    ensures r.ok <==> HasId(systems, id)
    ensures !r.ok ==> r.store == systems
    ensures r.ok ==> var k := FindIndex(systems, id).value;
      && |r.store| == |systems|
      && r.store[k] == Record(id, systems[k].attrs[StatusKey := Enabled])
      && forall j :: 0 <= j < |systems| && j != k ==> r.store[j] == systems[j]
  {
    SetStatus(systems, id, Enabled)
  }

  /** `disableSystem`: sets the found system's status to `disabled`. */
  function DisableSystem(systems: seq<Record>, id: Id): (r: Outcome)
    ensures r.ok <==> HasId(systems, id)
    ensures !r.ok ==> r.store == systems
    ensures r.ok ==> var k := FindIndex(systems, id).value;
      && |r.store| == |systems|
      && r.store[k] == Record(id, systems[k].attrs[StatusKey := Disabled])
      && forall j :: 0 <= j < |systems| && j != k ==> r.store[j] == systems[j]
  {
    SetStatus(systems, id, Disabled)
  }

  /** With unique ids, `getEnabledSystems` lists a system right after it is
      enabled and omits it right after it is disabled. */
  lemma EnabledSystemsFollowSwitch(systems: seq<Record>, id: Id)
    requires UniqueIds(systems) && HasId(systems, id)
    ensures exists x :: x in GetEnabledSystems(EnableSystem(systems, id).store) && x.id == id
    ensures forall x :: x in GetEnabledSystems(DisableSystem(systems, id).store) ==> x.id != id
  {
    SetStatusFilter(systems, id, Enabled, Disabled);
    SetStatusFilter(systems, id, Disabled, Enabled);
  }
}

=== FILE: templates.dfy ===
/** The template store: message templates with a `code`, a `status` of
    `draft` or `published`, and a `content` object holding one body per
    channel with `{name}` placeholders. Two lists are searched: the loaded
    templates and the built-in detailed templates, whose ids are strings and
    whose code field is called `templateCode`. */
module Templates {
  import opened Wrappers
  import opened JsValues
  import opened Collection
  import opened Placeholders
  import Seqs

  const CodeKey := "code"
  const TemplateCodeKey := "templateCode"
  const ContentKey := "content"
  const CreatedTimeKey := "createdTime"
  const UpdatedTimeKey := "updatedTime"
  const Draft := Text("draft")
  const Published := Text("published")

  /** `getTemplateById`: the first loaded template with the id, else the first
      built-in one, else nothing. */
  function GetTemplateById(loaded: seq<Record>, builtIn: seq<Record>, id: Id): (r: Option<Record>)
    ensures HasId(loaded, id) ==> r == Find(loaded, id)
    ensures !HasId(loaded, id) ==> r == Find(builtIn, id)
    ensures r.None? <==> !HasId(loaded, id) && !HasId(builtIn, id)
    ensures r.Some? ==> r.value.id == id
  {
    match Find(loaded, id)
    case Some(t) => Some(t)
    case None => Find(builtIn, id)
  }

  /** `getTemplateByCode`: the first loaded template whose `code` is the code,
      else the first built-in one whose `templateCode` is, else nothing. The
      code may be `undefined` (None), which a template without the field
      matches. */
  function GetTemplateByCode(loaded: seq<Record>, builtIn: seq<Record>, code: Option<Value>): (r: Option<Record>)
    ensures FindByAttr(loaded, CodeKey, code).Some? ==> r == FindByAttr(loaded, CodeKey, code)
    ensures FindByAttr(loaded, CodeKey, code).None? ==> r == FindByAttr(builtIn, TemplateCodeKey, code)
    ensures r.None? <==>
      (forall j :: 0 <= j < |loaded| ==> Lookup(loaded[j].attrs, CodeKey) != code) &&
      (forall j :: 0 <= j < |builtIn| ==> Lookup(builtIn[j].attrs, TemplateCodeKey) != code)
  {
    match FindByAttr(loaded, CodeKey, code)
    case Some(t) => Some(t)
    case None => FindByAttr(builtIn, TemplateCodeKey, code)
  }

  /** `t.code === code || (t.templateCode && t.templateCode === code)`, where
      an absent code equals another absent code. */
  predicate CodeClash(t: Record, code: Option<Value>) {
    || Lookup(t.attrs, CodeKey) == code
    || (Truthy(Lookup(t.attrs, TemplateCodeKey)) && Lookup(t.attrs, TemplateCodeKey) == code)
  }

  predicate CodeTaken(templates: seq<Record>, code: Option<Value>) {
    exists i :: 0 <= i < |templates| && CodeClash(templates[i], code)
  }

  /** The ids as `Math.max` sees them: `typeof id === 'number' ? id : 0`. */
  function NumericView(templates: seq<Record>): (r: seq<Id>)
    ensures |r| == |templates|
    ensures forall i :: 0 <= i < |r| ==> IsNumber(r[i])
    ensures forall i :: 0 <= i < |r| ==> r[i] == if templates[i].id.StringId? then IntId(0) else templates[i].id
  {
    seq(|templates|, i requires 0 <= i < |templates| => if templates[i].id.StringId? then IntId(0) else templates[i].id)
  }

  /** The result of `addTemplate`: the list afterwards and the pushed
      template, or None where `addTemplate` returns false. */
  datatype AddResult = AddResult(store: seq<Record>, added: Option<Record>)

  /** The id `addTemplate` assigns: one more than the largest numeric id,
      string ids counting as 0. Once the list holds any id other than
      -Infinity it is a finite number above every finite id, hence fresh. */
  function TemplateId(templates: seq<Record>): (id: Id)
    ensures id.NegInfinityId? <==> forall i :: 0 <= i < |templates| ==> templates[i].id.NegInfinityId?
    ensures id.IntId? ==> exists i :: 0 <= i < |templates| && NumericView(templates)[i] == IntId(id.n - 1)
    ensures id.IntId? ==> forall i :: 0 <= i < |templates| && NumericView(templates)[i].IntId? ==>
      NumericView(templates)[i].n < id.n
    ensures (exists i :: 0 <= i < |templates| && !templates[i].id.NegInfinityId?) ==>
      && id.IntId?
      && (forall i :: 0 <= i < |templates| && templates[i].id.IntId? ==> templates[i].id.n < id.n)
      && !HasId(templates, id)
  {
    var view := NumericView(templates);
    assert forall i :: 0 <= i < |templates| && !templates[i].id.NegInfinityId? ==>
      !view[i].NegInfinityId?;
    NextId(view)
  }

  /** The fields `addTemplate` pushes: the argument's, with `status`
      defaulting to draft and `createdTime` set to `now`. */
  function NewTemplateAttrs(template: map<string, Value>, now: string): (attrs: map<string, Value>)
    ensures Lookup(attrs, StatusKey) == Some(Or(Lookup(template, StatusKey), Draft))
    ensures Lookup(attrs, CreatedTimeKey) == Some(Text(now))
    ensures forall k :: k in template && k !in {StatusKey, CreatedTimeKey} ==> Lookup(attrs, k) == Some(template[k])
    ensures forall k :: k in attrs ==> k in template || k in {StatusKey, CreatedTimeKey}
  {
    template[StatusKey := Or(Lookup(template, StatusKey), Draft)][CreatedTimeKey := Text(now)]
  }

  /** `addTemplate`: rejects a code already used as some template's `code` or
      `templateCode`; otherwise pushes the template under id
      `max(numeric ids, other ids as 0) + 1`, with status `status || 'draft'`
      and the creation time `now`. */
  function AddTemplate(templates: seq<Record>, template: map<string, Value>, now: string): (r: AddResult)
    ensures r.added.None? <==> CodeTaken(templates, Lookup(template, CodeKey))
    ensures r.added.None? ==> r.store == templates
    ensures r.added.Some? ==> r.store == templates + [r.added.value]
    ensures r.added.Some? ==> var t := r.added.value;
      && HasStatus(t, Or(Lookup(template, StatusKey), Draft))
      && Lookup(t.attrs, CreatedTimeKey) == Some(Text(now))
      && Lookup(t.attrs, CodeKey) == Lookup(template, CodeKey)
      && (forall k :: k in template && k !in {"id", StatusKey, CreatedTimeKey} ==> Lookup(t.attrs, k) == Some(template[k]))
      && (forall k :: k in t.attrs ==> (k in template && k != "id") || k in {StatusKey, CreatedTimeKey})
    ensures r.added.Some? ==> r.added.value.id == TemplateId(templates)
    ensures r.added.Some? && (exists i :: 0 <= i < |templates| && !templates[i].id.NegInfinityId?) ==>
      && r.added.value.id.IntId?
      && (forall i :: 0 <= i < |templates| && templates[i].id.IntId? ==> templates[i].id.n < r.added.value.id.n)
      && !HasId(templates, r.added.value.id)
    ensures r.added.Some? && UniqueIds(templates) && (exists i :: 0 <= i < |templates| && !templates[i].id.NegInfinityId?) ==>
      UniqueIds(r.store)
  {
    var code := Lookup(template, CodeKey);
    if Seqs.FirstIndex(templates, (t: Record) => CodeClash(t, code)).Some? then
      AddResult(templates, None)
    else
      var attrs := NewTemplateAttrs(template, now);
      var pushed := Push(templates, TemplateId(templates), attrs);
      assert pushed.store == templates + [pushed.record];
      AddResult(pushed.store, Some(pushed.record))
  }

  /** Deleting the template just added restores the list, whenever its id is
      fresh: the list was empty or held an id other than `-Infinity`. */
  lemma AddTemplateThenDelete(templates: seq<Record>, template: map<string, Value>, now: string)
    requires |templates| == 0 || exists i :: 0 <= i < |templates| && !templates[i].id.NegInfinityId?
    ensures var a := AddTemplate(templates, template, now);
            a.added.Some? ==> DeleteTemplate(a.store, a.added.value.id) == Outcome(templates, true)
  {
    var a := AddTemplate(templates, template, now);
    if a.added.Some? {
      var id := TemplateId(templates);
      var attrs := NewTemplateAttrs(template, now);
      assert a.store == Push(templates, id, attrs).store;
      PushThenDelete(templates, id, attrs);
    }
  }

  /** `updateTemplate`: merges the supplied fields and the update time `now`
      into the first template with the id; false and no change when there is
      none. */
  function UpdateTemplate(templates: seq<Record>, id: Id, patch: map<string, Value>, now: string): (r: Outcome)
    requires "id" !in patch
    ensures r.ok <==> HasId(templates, id)
    ensures !r.ok ==> r.store == templates
    ensures r.ok ==> var k := FindIndex(templates, id).value;
      && |r.store| == |templates| && r.store[k].id == id
      && Lookup(r.store[k].attrs, UpdatedTimeKey) == Some(Text(now))
      && Merged(templates[k].attrs, patch[UpdatedTimeKey := Text(now)], r.store[k].attrs)
      && (forall key :: key in patch && key != UpdatedTimeKey ==> Lookup(r.store[k].attrs, key) == Some(patch[key]))
      && (forall key :: key in templates[k].attrs && key !in patch && key != UpdatedTimeKey ==>
            Lookup(r.store[k].attrs, key) == Some(templates[k].attrs[key]))
      && forall j :: 0 <= j < |templates| && j != k ==> r.store[j] == templates[j]
  {
    Update(templates, id, patch[UpdatedTimeKey := Text(now)])
  }

  /** Repeating an update with the same fields at the same time changes
      nothing more. */
  lemma UpdateTemplateTwice(templates: seq<Record>, id: Id, patch: map<string, Value>, now: string)
    requires "id" !in patch
    ensures var once := UpdateTemplate(templates, id, patch, now);
            UpdateTemplate(once.store, id, patch, now) == once
  {
    UpdateIdempotent(templates, id, patch[UpdatedTimeKey := Text(now)]);
  }

  /** `deleteTemplate`: removes the first template with the id, keeping the
      others in order; false and no change when there is none. */
  function DeleteTemplate(templates: seq<Record>, id: Id): (r: Outcome)
    ensures r.ok <==> HasId(templates, id)
    ensures !r.ok ==> r.store == templates
    ensures r.ok ==> var k := FindIndex(templates, id).value;
      && |r.store| == |templates| - 1
      && (forall j :: 0 <= j < k ==> r.store[j] == templates[j])
      && (forall j :: k <= j < |r.store| ==> r.store[j] == templates[j + 1])
    ensures UniqueIds(templates) ==> UniqueIds(r.store) && !HasId(r.store, id)
  {
    Delete(templates, id)
  }

  /** `publishTemplate`: sets the found template's status to `published` and
      its update time to `now`; false and no change for an unknown id. */
  function PublishTemplate(templates: seq<Record>, id: Id, now: string): (r: Outcome)
    ensures r.ok <==> HasId(templates, id)
    ensures !r.ok ==> r.store == templates
    ensures r.ok ==> var k := FindIndex(templates, id).value;
      && |r.store| == |templates| && r.store[k].id == id
      && HasStatus(r.store[k], Published)
      && r.store[k].attrs == templates[k].attrs[StatusKey := Published][UpdatedTimeKey := Text(now)]
      && Lookup(r.store[k].attrs, UpdatedTimeKey) == Some(Text(now))
      && (forall key :: key in templates[k].attrs && key != StatusKey && key != UpdatedTimeKey ==>
            Lookup(r.store[k].attrs, key) == Some(templates[k].attrs[key]))
      && forall j :: 0 <= j < |templates| && j != k ==> r.store[j] == templates[j]
  {
    Update(templates, id, map[StatusKey := Published, UpdatedTimeKey := Text(now)])
  }

  /** Publishing again leaves the template published: the second call finds
      the same template and changes nothing but the update time. */
  lemma PublishTwice(templates: seq<Record>, id: Id, now: string, later: string)
    ensures var once := PublishTemplate(templates, id, now);
            var twice := PublishTemplate(once.store, id, later);
            && twice.ok == once.ok
            && (once.ok ==> HasStatus(twice.store[FindIndex(templates, id).value], Published))
            && (now == later ==> twice.store == once.store)
  {
    var once := PublishTemplate(templates, id, now);
    FindIndexSameIds(templates, once.store, id);
    UpdateIdempotent(templates, id, map[StatusKey := Published, UpdatedTimeKey := Text(now)]);
  }

  // ---------------------------------------------------------------------
  // Preview

  /** `template.content` as an object of channel bodies; anything that is not
      such an object yields no channel. */
  function Bodies(t: Record): map<string, string> {
    match Lookup(t.attrs, ContentKey)
    case Some(Dict(m)) => m
    case _ => map[]
  }

  /** `{...template, previewContent}`. */
  datatype Preview = Preview(template: Record, previewContent: map<string, string>)

  /** `previewTemplate(id, data)`: null when no template has the id; otherwise
      the template with every channel body rendered on its own by the data's
      (name, value) entries in key order. */
  function PreviewTemplate(loaded: seq<Record>, builtIn: seq<Record>, id: Id, data: seq<(string, string)>): (r: Option<Preview>)
    ensures r.None? <==> !HasId(loaded, id) && !HasId(builtIn, id)
    ensures r.Some? ==> r.value.template == GetTemplateById(loaded, builtIn, id).value
    ensures r.Some? ==> r.value.previewContent.Keys == Bodies(r.value.template).Keys
    ensures r.Some? ==> forall ch :: ch in r.value.previewContent ==>
      r.value.previewContent[ch] == Render(Bodies(r.value.template)[ch], data)
  {
    match GetTemplateById(loaded, builtIn, id)
    case None => None
    case Some(t) =>
      var bodies := Bodies(t);
      Some(Preview(t, map ch | ch in bodies :: Render(bodies[ch], data)))
  }

  /** With data of brace-free names and values and bodies without nested
      braces, no rendered body still holds `{name}` for a name given a truthy
      value. */
  lemma PreviewResolvesGivenNames(loaded: seq<Record>, builtIn: seq<Record>, id: Id, data: seq<(string, string)>)
    requires PlainData(data)
    requires match GetTemplateById(loaded, builtIn, id)
             case None => true
             case Some(t) => forall ch :: ch in Bodies(t) ==> WellBraced(Bodies(t)[ch])
    ensures match PreviewTemplate(loaded, builtIn, id, data)
            case None => true
            case Some(p) => forall ch, i :: ch in p.previewContent && 0 <= i < |data| && data[i].1 != "" ==>
              !Contains(p.previewContent[ch], Placeholder(data[i].0))
  {
    match PreviewTemplate(loaded, builtIn, id, data)
    case None =>
    case Some(p) =>
      forall ch | ch in p.previewContent
        ensures forall i :: 0 <= i < |data| && data[i].1 != "" ==>
          !Contains(p.previewContent[ch], Placeholder(data[i].0))
      {
        RenderResolves(Bodies(p.template)[ch], data);
      }
  }

  /** A placeholder whose name the data leaves out, or gives only a falsy
      value, stays in every rendered body that had it; with only falsy values
      (in particular with no data) every body is its original. */
  lemma PreviewKeepsUnresolved(loaded: seq<Record>, builtIn: seq<Record>, id: Id, data: seq<(string, string)>, w: string)
    requires PlainNames(data) && BraceFree(w)
    requires forall i :: 0 <= i < |data| && data[i].0 == w ==> data[i].1 == ""
    ensures match PreviewTemplate(loaded, builtIn, id, data)
            case None => true
            case Some(p) => forall ch :: ch in p.previewContent && Contains(Bodies(p.template)[ch], Placeholder(w)) ==>
              Contains(p.previewContent[ch], Placeholder(w))
    ensures (forall i :: 0 <= i < |data| ==> data[i].1 == "") ==>
            match PreviewTemplate(loaded, builtIn, id, data)
            case None => true
            case Some(p) => p.previewContent == Bodies(p.template)
  {
    match PreviewTemplate(loaded, builtIn, id, data)
    case None =>
    case Some(p) =>
      var bodies := Bodies(p.template);
      forall ch | ch in p.previewContent && Contains(bodies[ch], Placeholder(w))
        ensures Contains(p.previewContent[ch], Placeholder(w))
      {
        RenderKeepsUnresolved(bodies[ch], data, w);
      }
      if forall i :: 0 <= i < |data| ==> data[i].1 == "" {
        forall ch | ch in bodies
          ensures p.previewContent[ch] == bodies[ch]
        {
          RenderFalsyKeepsBody(bodies[ch], data);
        }
      }
  }
}

=== FILE: wrappers.dfy ===
/** Optional values: a JavaScript lookup that may come back `undefined`. */
module Wrappers {

  datatype Option<+T> = None | Some(value: T)
}
